=== FILE: README.md ===
# Block file storage (fsblkstorage `blockfileMgr`)

This project models the block-file storage engine of a Hyperledger Fabric
peer ledger. The engine appends blocks to numbered blockfiles and keeps a
checkpoint of where writing stopped. After a crash it recovers by scanning
the active blockfile. It answers lookups by block number, by block hash and
by transaction id, iterates blocks in order, and reports the blockchain
info (height and hashes).

The model is pure and sequential. Blockfiles are byte sequences
(`seq<seq<byte>>`, blockfile `i` at index `i`). The manager is an immutable
value (`BlockfileMgr.Mgr`), and every operation returns a new one.
What outlives a process is a `Disk` value: the blockfiles, the persisted
checkpoint and the persisted index.

Modules, leaves first:

- `Types`: bytes, Go's `uint64`, `Option`/`Result`, and the error taxonomy
  (`NotFound`, `ShortRead`, `MalformedRecord`, `CorruptCheckpoint`,
  `SerializationFailed`).
- `Varint`: the Protocol Buffers base-128 varint, as Go's protobuf
  `EncodeVarint`/`DecodeVarint` compute it. That includes the 10-group limit
  and the 64-bit truncation of the tenth group.
- `Fields`: length-prefixed fields (`varint(|s|) ++ s`) and runs of varints.
- `BlockCodec`: blocks (number, hash, previous hash, transactions with id and
  envelope) serialized to a payload. Serializing also reports where each
  envelope lies, as `serializeBlock` does.
- `BlockFile`: records (`varint(|payload|) ++ payload`), reading a record at
  an offset, the recovery scan of a blockfile, and reading raw bytes at a
  location.
- `BlockIndex`: the three indexes (number, hash and transaction id to
  location) as maps written entry by entry, last write wins.
- `BlockfileMgr`: the checkpoint, the configuration, adding blocks with file
  rolling, raw appends, `saveCurrentInfo`, close, open with recovery, the
  lookups, `getBlockchainInfo` and `retrieveBlocks`, plus the manager's
  invariant.
- `MgrInvariant`, `MgrLookup`, `MgrRecovery`, `MgrRolling`: the invariant is
  kept by every write. Lookups answer what reference definitions over the
  stored blocks answer. Reopening and crash recovery give back the manager
  as it was. Record placement under a size limit is computed on sizes alone.
- `MgrScenarios`: each test of `blockfile_mgr_test.go`, stated for all
  inputs of the shape the test uses.

## Model

All paths are relative to the repository root; the test file is
`core/ledger/blkstorage/fsblkstorage/blockfile_mgr_test.go`.

| member | source | states |
|---|---|---|
| Varint.VarintRoundTrip | core/ledger/blkstorage/fsblkstorage/blockfile_mgr_test.go:69-72 | Decoding a varint length prefix followed by any bytes yields the encoded value. It also yields the exact number of bytes the prefix took. |
| Varint.EncodeVarint | core/ledger/blkstorage/fsblkstorage/blockfile_mgr_test.go:69-72 | An encoding is at least one byte long, and its last byte has the continuation bit clear, so a reader knows where the prefix ends. `VarintRoundTrip` decodes it back. |
| Varint.DecodeVarint | core/ledger/blkstorage/fsblkstorage/blockfile_mgr_test.go:69-73 | The decoder never consumes more than the buffer holds or more than ten bytes. When it reports no complete varint, its value is 0. `VarintCut` and `DecodeVarintPrefix` relate it to encodings. |
| Varint.EncodeVarintLength | core/ledger/blkstorage/fsblkstorage/blockfile_mgr_test.go:179-181 | The length prefix of a record takes between 1 and 10 bytes. |
| Varint.EncodeVarintShape | core/ledger/blkstorage/fsblkstorage/blockfile_mgr_test.go:69 | Every byte of an encoding except the last has the continuation bit set; the last does not. |
| Varint.VarintCut | core/ledger/blkstorage/fsblkstorage/blockfile_mgr_test.go:69-73 | A strict prefix of a varint, the empty one included, decodes as "no complete varint". |
| Varint.DecodeVarintExtend | core/ledger/blkstorage/fsblkstorage/blockfile_mgr_test.go:74 | Bytes appended after a complete varint do not change what it decodes to. |
| Varint.DecodeVarintPrefix | core/ledger/blkstorage/fsblkstorage/blockfile_mgr_test.go:79-82 | Cutting the buffer anywhere after a complete varint keeps its value and length. |
| Fields.ReadFieldAt | core/ledger/blkstorage/fsblkstorage/blockfile_mgr_test.go:68-72 | A framed record `varint(\|p\|) ++ p`, followed by anything, reads back as exactly `p` and consumes exactly the framed bytes. |
| Fields.FieldCut | core/ledger/blkstorage/fsblkstorage/blockfile_mgr_test.go:73-74 | A strict prefix of a framed record reads as no record at all. |
| Fields.ReadFieldExtend | core/ledger/blkstorage/fsblkstorage/blockfile_mgr_test.go:74 | Bytes appended after a complete record do not change it. |
| Fields.ReadFieldPrefix | core/ledger/blkstorage/fsblkstorage/blockfile_mgr_test.go:79-82 | Cutting the file after a complete record leaves that record readable and unchanged. |
| Fields.VarintsRoundTrip | core/ledger/blkstorage/fsblkstorage/blockfile_mgr_test.go:177 | A run of varints reads back as written and consumes exactly its bytes. |
| Fields.FieldsRoundTrip | core/ledger/blkstorage/fsblkstorage/blockfile_mgr_test.go:177 | A run of fields reads back as written. It also gives the absolute offset where each field's contents start. |
| BlockCodec.Serialize | core/ledger/blkstorage/fsblkstorage/blockfile_mgr_test.go:177 | Serialization reports one offset per transaction, in order, under that transaction's id and as long as its envelope. `SerializeRoundTrip` and `SerializeLocates` relate the payload to the offsets. |
| BlockCodec.Deserialize | core/ledger/blkstorage/fsblkstorage/blockfile_mgr_test.go:177 | Every payload that deserializes yields one offset per transaction of the block, in order, under that transaction's id and as long as its envelope. `SerializeRoundTrip` is its inverse law. |
| BlockCodec.SerializeRoundTrip | core/ledger/blkstorage/fsblkstorage/blockfile_mgr_test.go:177-178 | Deserializing a serialized block gives back the block and the envelope offsets that serialization reported. |
| BlockCodec.SerializeLocates | core/ledger/blkstorage/fsblkstorage/blockfile_mgr_test.go:144-153 | Each offset that serialization reports names exactly the envelope bytes of its transaction, under that transaction's id. |
| BlockCodec.DeserializeLocates | core/ledger/blkstorage/fsblkstorage/blockfile_mgr_test.go:144-153 | The same holds for every payload that deserializes, not only for payloads this codec wrote. |
| BlockFile.ReadRecord | core/ledger/blkstorage/fsblkstorage/blockfile_mgr_test.go:68-74 | A record read at an offset ends past that offset and within the file. The only failures are `ShortRead` and `MalformedRecord`. `ScanTornTail` and `ScanMalformedTail` show that either kind of tail ends the scan. |
| BlockFile.ScanFile | core/ledger/blkstorage/fsblkstorage/blockfile_mgr_test.go:79-82 | The recovery scan stops between its start offset and the end of the file. `ScanTruncate` and `LongestCleanPrefix` show that the place where it stops is the end of the longest clean prefix. |
| BlockFile.ReadBlock | core/ledger/blkstorage/fsblkstorage/blockfile_mgr_test.go:37-38 | A block read succeeds only at a location inside an existing blockfile, and fails only with `ShortRead` or `MalformedRecord`. `ScanSound` shows that the locations the scan records do read back their blocks. |
| BlockFile.ReadRaw | core/ledger/blkstorage/fsblkstorage/blockfile_mgr_test.go:149 | Reading a location fails exactly when the location runs past the end of its blockfile. Otherwise it yields exactly `length` bytes. |
| BlockFile.ScanAppend | core/ledger/blkstorage/fsblkstorage/blockfile_mgr_test.go:36 | Appending a block's record to a clean blockfile makes the scan find the old entries, then exactly one entry for that block. The scan then reaches the end. |
| BlockFile.ScanExtend | core/ledger/blkstorage/fsblkstorage/blockfile_mgr_test.go:74 | Bytes appended to a clean blockfile leave the scan of the old part unchanged. The scan then goes on into the new bytes. |
| BlockFile.ScanTruncate | core/ledger/blkstorage/fsblkstorage/blockfile_mgr_test.go:79-82 | Cutting a blockfile where its scan stops gives a file that scans the same and is read to its end. This is the recovery fixpoint. |
| BlockFile.ScanTornTail | core/ledger/blkstorage/fsblkstorage/blockfile_mgr_test.go:68-74 | A strict prefix of a framed record at the end of a blockfile holds no entry, so the scan stops where the prefix starts. |
| BlockFile.ScanMalformedTail | core/ledger/blkstorage/fsblkstorage/blockfile_mgr_test.go:68-74 | A complete record whose payload is not a block also holds no entry; the scan stops before it. |
| BlockFile.LongestCleanPrefix | core/ledger/blkstorage/fsblkstorage/blockfile_mgr_test.go:79-82 | No prefix of a blockfile that is longer than where its scan stops holds only whole records. |
| BlockFile.ScanSound | core/ledger/blkstorage/fsblkstorage/blockfile_mgr_test.go:37-38 | Every entry a scan finds is truthful. Its offset holds a record of that block, and each of its transaction locations holds that transaction's envelope. |
| BlockIndex.LookupPut | core/ledger/blkstorage/fsblkstorage/blockfile_mgr_test.go:36-38 | After a run of writes, a lookup answers the key's last write. It answers the old value when the run never wrote the key. |
| BlockIndex.LastWriteAppend | core/ledger/blkstorage/fsblkstorage/blockfile_mgr_test.go:84-86 | The last write of a key across two runs is the last one in the later run, else the last one in the earlier run. |
| BlockIndex.PutAgain | core/ledger/blkstorage/fsblkstorage/blockfile_mgr_test.go:79-82 | Writing the tail of a run of writes again changes nothing. |
| BlockIndex.FoldAppend | core/ledger/blkstorage/fsblkstorage/blockfile_mgr_test.go:84-86 | Indexing two runs of entries equals indexing the first run, then the second. |
| BlockIndex.FoldAgain | core/ledger/blkstorage/fsblkstorage/blockfile_mgr_test.go:79-82 | Re-indexing the entries recovered from the active file leaves an index that already holds them unchanged. |
| BlockIndex.RecordAgain | core/ledger/blkstorage/fsblkstorage/blockfile_mgr_test.go:79-82 | Recording the same entry twice is the same as recording it once. |
| BlockIndex.LastNumbered | core/ledger/blkstorage/fsblkstorage/blockfile_mgr_test.go:38 | Reference answer for a number lookup: an entry that carries the number, and none exactly when no entry carries it. |
| BlockIndex.LastHashed | core/ledger/blkstorage/fsblkstorage/blockfile_mgr_test.go:37 | Reference answer for a hash lookup: an entry that carries the hash, and none exactly when no entry carries it. |
| BlockIndex.LastNumberedAt | core/ledger/blkstorage/fsblkstorage/blockfile_mgr_test.go:38 | The reference number lookup answers an entry when no later entry has its number. |
| BlockIndex.LastHashedAt | core/ledger/blkstorage/fsblkstorage/blockfile_mgr_test.go:196-198 | The reference hash lookup answers an entry when no later entry has its hash. |
| BlockIndex.NumberWritesFind | core/ledger/blkstorage/fsblkstorage/blockfile_mgr_test.go:38 | The number writes of a run answer a number with the location of the reference entry. |
| BlockIndex.HashWritesFind | core/ledger/blkstorage/fsblkstorage/blockfile_mgr_test.go:37 | The hash writes of a run answer a hash with the location of the reference entry. |
| BlockIndex.FoldLookups | core/ledger/blkstorage/fsblkstorage/blockfile_mgr_test.go:37-38 | The index built from a run of entries gives the reference entry's location for a number or a hash. For a transaction id it gives the location of that id's last write. |
| BlockfileMgr.MoveToNextFile | core/ledger/blkstorage/fsblkstorage/blockfile_mgr_test.go:190 | Rolling adds one empty blockfile and makes it active. Earlier blockfiles stay untouched and the last block number stays the same. |
| BlockfileMgr.AppendRecord | core/ledger/blkstorage/fsblkstorage/blockfile_mgr_test.go:184-190 | The manager rolls exactly when a limit is set and the record would push the active file past it. The record then lands at the end of the active file, which may be the new empty one, and the checkpoint size is that file's new size. Earlier files stay untouched, and the info names the new block. |
| BlockfileMgr.AddBlock | core/ledger/blkstorage/fsblkstorage/blockfile_mgr_test.go:36 | Adding a block succeeds exactly when it serializes and its payload length fits the varint prefix. Otherwise it fails with `SerializationFailed`. On success the last block number is the block's. |
| BlockfileMgr.AddBlocks | core/ledger/blkstorage/fsblkstorage/blockfile_mgr_test.go:56 | Adding a run of blocks succeeds exactly when every block can be stored. The last block number is then the number of the run's last block. |
| BlockfileMgr.RawAppend | core/ledger/blkstorage/fsblkstorage/blockfile_mgr_test.go:74 | A raw append puts the bytes at the end of the active file and nowhere else. The in-memory and persisted checkpoints, the index, the info and the configuration do not change. |
| BlockfileMgr.SaveCurrentInfo | core/ledger/blkstorage/fsblkstorage/blockfile_mgr_test.go:75 | Persisting a checkpoint records exactly that checkpoint. The checkpoint in memory, the blockfiles, the index, the info and the configuration do not change. |
| BlockfileMgr.Close | core/ledger/blkstorage/fsblkstorage/blockfile_mgr_test.go:76 | What survives close or a crash is exactly the blockfiles, the last persisted checkpoint and the persisted index. `MgrRecovery.Reopen` shows that opening it again restores the manager. |
| BlockfileMgr.Recover | core/ledger/blkstorage/fsblkstorage/blockfile_mgr_test.go:79-82 | A successful recovery from a checkpoint that names the last blockfile gives a well-formed manager on that blockfile. Its active file holds whole records only, and the checkpoint size is that file's size. Earlier blockfiles stay as they were on disk, and the checkpoint is persisted. The active file is the disk's blockfile cut at its last whole record (`Cut`). The index is the persisted one with the recovered records indexed again. The last block number is the last recovered record's, or the persisted one when the file holds no whole record. The only failures are `CorruptCheckpoint` and read errors. `MgrRecovery.RecoverAfter` states what it restores. |
| BlockfileMgr.Cut | core/ledger/blkstorage/fsblkstorage/blockfile_mgr_test.go:79-82 | The recovered active file is the longest prefix of the file on disk that holds only whole records. It ends exactly where the scan stopped, scans the same, and is clean; no longer prefix is clean. |
| BlockfileMgr.InfoFromIndex | core/ledger/blkstorage/fsblkstorage/blockfile_mgr_test.go:128-129 | With no block, the info is height 0 with no hashes. Otherwise the height is the last block number. The only failures are `CorruptCheckpoint` and read errors. |
| BlockfileMgr.Open | core/ledger/blkstorage/fsblkstorage/blockfile_mgr_test.go:79-81 | A successful open keeps the persisted checkpoint's blockfile active and persists the checkpoint it holds. The active file is clean and exactly the checkpoint's size, and files before it are untouched. When that blockfile exists, it is recovered as `Recover` states. When it does not, the new active file is empty, the index is the persisted one and the last block number is 0. Failures are only `CorruptCheckpoint` or read errors. |
| BlockfileMgr.ByNumber | core/ledger/blkstorage/fsblkstorage/blockfile_mgr_test.go:38 | A number lookup fails with `NotFound` exactly when the number index lacks the number. Its other failures are read errors. `MgrLookup.ByNumberFinds` ties the answer to the stored blocks. |
| BlockfileMgr.ByHash | core/ledger/blkstorage/fsblkstorage/blockfile_mgr_test.go:37 | A hash lookup fails with `NotFound` exactly when the hash index lacks the hash. Its other failures are read errors. `MgrLookup.ByHashFinds` ties the answer to the stored blocks. |
| BlockfileMgr.TxById | core/ledger/blkstorage/fsblkstorage/blockfile_mgr_test.go:149 | A transaction lookup fails with `NotFound` exactly when the transaction index lacks the id. Otherwise it fails only with `ShortRead`, or it returns as many bytes as the indexed location names. `MgrLookup.TxByIdFinds` ties the answer to the stored transactions. |
| BlockfileMgr.GetBlockchainInfo | core/ledger/blkstorage/fsblkstorage/blockfile_mgr_test.go:128-134 | Under the invariant, the height is the last block number. A ledger without blocks reports height 0 and no hashes. Otherwise the current and previous hashes are those of the last block stored. |
| BlockfileMgr.BlocksFrom | core/ledger/blkstorage/fsblkstorage/blockfile_mgr_test.go:115-119 | A finished iteration from `start` yields `last - start + 1` blocks, or none when `start` is past the last block. |
| BlockfileMgr.RetrieveBlocks | core/ledger/blkstorage/fsblkstorage/blockfile_mgr_test.go:104-120 | Calling the iterator's `Next()` until the last block number collects exactly the blocks of the reference iteration. It stops at the first error. |
| MgrInvariant.OpenFresh | core/ledger/blkstorage/fsblkstorage/blockfile_mgr_test.go:122-129 | Opening an empty ledger succeeds and satisfies the invariant. It holds no block, its checkpoint is (0, 0, 0), and its info is height 0 with no hashes. |
| MgrInvariant.MoveKeepsInv | core/ledger/blkstorage/fsblkstorage/blockfile_mgr_test.go:190 | Rolling keeps the invariant and the stored entries. |
| MgrInvariant.AppendKeepsInv | core/ledger/blkstorage/fsblkstorage/blockfile_mgr_test.go:36 | Appending a record keeps the invariant and adds exactly the new block's entry after the old ones. |
| MgrInvariant.AddBlockKeepsInv | core/ledger/blkstorage/fsblkstorage/blockfile_mgr_test.go:36 | Adding a storable block numbered from 1 succeeds and keeps the invariant. It adds one entry, for that block, and leaves the old entries as they were. |
| MgrInvariant.AddBlocksKeepsInv | core/ledger/blkstorage/fsblkstorage/blockfile_mgr_test.go:56-65 | Adding storable blocks keeps the invariant. The blockfiles then hold the old blocks followed by the new ones, in order, and the old entries are untouched. |
| MgrLookup.AllEntriesSound | core/ledger/blkstorage/fsblkstorage/blockfile_mgr_test.go:37-38 | Every entry scanned from the blockfiles is truthful about the blockfile it names. |
| MgrLookup.ByNumberFinds | core/ledger/blkstorage/fsblkstorage/blockfile_mgr_test.go:38 | Looking up a number returns the block the reference lookup finds, and `NotFound` when no stored block has that number. |
| MgrLookup.ByHashFinds | core/ledger/blkstorage/fsblkstorage/blockfile_mgr_test.go:37 | Looking up a hash returns the block the reference lookup finds, and `NotFound` when no stored block has that hash. |
| MgrLookup.LastTx | core/ledger/blkstorage/fsblkstorage/blockfile_mgr_test.go:144-149 | Reference answer for a transaction id: a transaction with that id in a stored block, and none exactly when no stored transaction has it. |
| MgrLookup.TxWritesServe | core/ledger/blkstorage/fsblkstorage/blockfile_mgr_test.go:149 | The transaction index built from truthful entries agrees with the reference. Either both are empty, or the location holds the reference transaction's envelope. |
| MgrLookup.TxByIdFinds | core/ledger/blkstorage/fsblkstorage/blockfile_mgr_test.go:149-153 | Looking up a transaction id returns the envelope of the reference transaction, and `NotFound` when no stored transaction has that id. |
| MgrRecovery.InfoRecovered | core/ledger/blkstorage/fsblkstorage/blockfile_mgr_test.go:167-169 | Reading the info back through the index gives the info the manager held. |
| MgrRecovery.RecoverAfter | core/ledger/blkstorage/fsblkstorage/blockfile_mgr_test.go:79-82 | The recovery theorem. Suppose the active file is followed by a tail from which no record can be read, and the persisted checkpoint names the active file. Suppose also that the checkpoint carries the right last number whenever that file holds no whole record. Then open gives back exactly the manager as it was. |
| MgrRecovery.Reopen | core/ledger/blkstorage/fsblkstorage/blockfile_mgr_test.go:165-169 | Closing and opening again gives the same manager. |
| MgrRecovery.RecoverTornWrite | core/ledger/blkstorage/fsblkstorage/blockfile_mgr_test.go:67-82 | A strict prefix of a framed record is torn onto the active file. The persisted checkpoint names the same file, and it carries the right last block number when that file holds no whole record. Open then gives back the manager as it was before the torn write. |
| MgrRecovery.RecoverMalformedRecord | core/ledger/blkstorage/fsblkstorage/blockfile_mgr_test.go:67-82 | The same holds, under the same condition on the persisted checkpoint, when a whole record whose payload is not a block reached the active file. |
| MgrRolling.Place | core/ledger/blkstorage/fsblkstorage/blockfile_mgr_test.go:184-190 | Placing records rolls at most once per record, and never under limit 0. |
| MgrRolling.NoRoll | core/ledger/blkstorage/fsblkstorage/blockfile_mgr_test.go:184-190 | Records that fit in what is left of the active file stay in it. |
| MgrRolling.OneRoll | core/ledger/blkstorage/fsblkstorage/blockfile_mgr_test.go:184-190 | Records of bounded size that overflow the active file, by less than a file minus one record, roll exactly once. They bound what the new file holds. |
| MgrRolling.RollsTwice | core/ledger/blkstorage/fsblkstorage/blockfile_mgr_test.go:184-197 | Suppose every record is at most a bound of at least 1 byte, and that bound is at most a twentieth of the total, and the limit is three quarters of the total, rounded down. Then writing the records into a new ledger leaves suffix 1, and writing them again leaves suffix 2. |
| MgrRolling.RecordSize | core/ledger/blkstorage/fsblkstorage/blockfile_mgr_test.go:176-182 | A block's record takes its serialized length plus the length of its varint prefix, which is 1 to 10 bytes. |
| MgrRolling.AddBlocksPlace | core/ledger/blkstorage/fsblkstorage/blockfile_mgr_test.go:189-190 | Adding blocks moves the checkpoint's suffix and size exactly as placing their record sizes does. |
| MgrScenarios.ByNumberAt | core/ledger/blkstorage/fsblkstorage/blockfile_mgr_test.go:38 | A stored block that no later block shares a number with is returned by number. |
| MgrScenarios.ByHashAt | core/ledger/blkstorage/fsblkstorage/blockfile_mgr_test.go:37 | A stored block that no later block shares a hash with is returned by hash. |
| MgrScenarios.TxByIdAt | core/ledger/blkstorage/fsblkstorage/blockfile_mgr_test.go:144-153 | With transaction ids unique, every stored transaction's envelope is returned by its id. |
| MgrScenarios.BlocksFromConsecutive | core/ledger/blkstorage/fsblkstorage/blockfile_mgr_test.go:104-120 | Over blocks numbered 1, 2, 3, …, the iterator from `start` yields the stored blocks from `start` on, in order. |
| MgrScenarios.ReadWrite | core/ledger/blkstorage/fsblkstorage/blockfile_mgr_test.go:30-39 | Blocks numbered from 1 with distinct hashes, added to a fresh ledger, are each returned unchanged by hash and by number. |
| MgrScenarios.Iterate | core/ledger/blkstorage/fsblkstorage/blockfile_mgr_test.go:94-102 | The iterator from any number in 1..N+1 yields the added blocks from that number on, so the first 8 of 10 are the first 8 added. |
| MgrScenarios.Info | core/ledger/blkstorage/fsblkstorage/blockfile_mgr_test.go:122-135 | An empty ledger reports height 0 with no hashes. After N blocks numbered from 1 it reports height N and the last block's hashes. |
| MgrScenarios.TxByIdAll | core/ledger/blkstorage/fsblkstorage/blockfile_mgr_test.go:137-156 | Every transaction of every added block is returned by its id, as its envelope. |
| MgrScenarios.Restart | core/ledger/blkstorage/fsblkstorage/blockfile_mgr_test.go:158-171 | After close and reopen the manager is unchanged. Its last block number is the count of blocks added, and every block is still found by hash. |
| MgrScenarios.CrashDuringWriting | core/ledger/blkstorage/fsblkstorage/blockfile_mgr_test.go:41-92 | Scenario: blocks, then a checkpoint is kept, then more blocks, then a strict prefix of a further framed record, then the kept checkpoint is persisted and the process dies. Reopening gives back the manager as it was after the last whole block, with last block number `\|before\| + \|after\|`. Blocks added after that are iterated from 1 together with all the earlier ones. |
| MgrScenarios.FileRolling | core/ledger/blkstorage/fsblkstorage/blockfile_mgr_test.go:173-199 | Limit at three quarters of the blocks' total record size. Adding the blocks leaves suffix 1 with every block found by hash. Reopening changes nothing. Adding the blocks again leaves suffix 2 with every block still found by hash. |
| MgrScenarios.AddedTwiceFound | core/ledger/blkstorage/fsblkstorage/blockfile_mgr_test.go:194-198 | When the same blocks are added a second time, each is still found by hash; the second copy is the one returned. |
| MgrScenarios.LastCopyFound | core/ledger/blkstorage/fsblkstorage/blockfile_mgr_test.go:198 | Blocks of distinct hashes that end the ledger are each found by hash. |

## Left out

- The implementation file `blockfile_mgr.go` is not part of this model. The behaviour modelled is what the test file asserts. Where the test leaves a choice open, the model makes one, as listed below.
- Protocol Buffers block serialization is not modelled. `BlockCodec` is a small self-describing layout instead: varints for number and transaction count, then length-prefixed hash, previous hash, and transaction id/envelope pairs. Hashes and transaction ids are data carried by the block, not computed.
- `extractTxID` and `extractTransaction` are not modelled. The transaction lookup returns the envelope bytes; the test compares the transaction extracted from them, which is a function of those bytes.
- The float computation `int(0.75 * float64(size))` is modelled as the floor of `3 * size / 4` (`4 * max <= 3 * size < 4 * max + 4`). The two agree whenever `3 * size` is below 2^53, which covers any size a test can produce.
- Random bytes are not generated. The torn record's payload is an arbitrary byte sequence that fits a varint length.
- File system I/O is not modelled: directories, paths, ledger ids, file handles, the `sync` flag and fsync. Durability is the explicit `Disk` value: blockfiles, persisted checkpoint and persisted index. Closing and crashing are the same function `Close`.
- The iterator's `Close` and any waiting for blocks not yet written are not modelled. The iterator is the finite run from `start` to the last block number held when it is created.
- Concurrency between readers and the writer is not modelled; every operation is one atomic step.
- `IOError` and `UnrecoverableLedger` are not modelled. Blockfiles before the active one are assumed valid, and recovery scans only the active file.
- Replaying closed blockfiles into a stale or missing index is not modelled. Recovery re-indexes the active file's records into the persisted index.
- Recovery scans the active file from offset 0, not from the persisted checkpoint's offset, and cuts the file where the scan stops. The last block number is the number of the last recovered block, or the persisted one when the active file holds no whole record.
- A checkpoint naming a blockfile that does not exist is accepted as a fresh ledger only when it names no block and no earlier blockfile is missing. Every other mismatch between the checkpoint and the files is `CorruptCheckpoint`.
- Adding a block does not check that its number follows the last one, because the rolling test adds blocks 1 to 100 a second time and expects success. Lookups return the block recorded last.
- The hash index maps a hash to a location rather than to a block number, so that a hash lookup stays exact when numbers repeat.
- The blockchain info's height is the last block number, which equals the number of blocks when they are numbered from 1. Its previous hash is the previous-hash field of the last block.
- The blockfile size limit 0 means "never roll". Under a positive limit the manager rolls whenever the record would push the active file past the limit, even when the active file is empty.
- MgrScenarios.FileRolling: proved only when no record is larger than a twentieth of the total record size of the blocks, and only for blocks with distinct hashes, as the test's block generator makes them. Ten or more records of that size are needed for one roll per pass to follow from the sizes alone. The test's 100 similar blocks are expected to meet the size bound, but that is not proved.
- MgrRolling.RollsTwice: assumes every record is at most a bound of at least 1 byte that is itself at most a twentieth of the total, as MgrScenarios.FileRolling does. Without a bound of that kind a single large record can roll on its own, and the suffix after each pass is then not determined by the three-quarters limit alone.
- MgrScenarios.ReadWrite: assumes the blocks are numbered 1, 2, 3, … and have distinct hashes, as the test's block generator makes them. The same assumption applies to MgrScenarios.Restart and MgrScenarios.Iterate (numbering only).
- MgrScenarios.TxByIdAll: assumes transaction ids are unique across the added blocks, as the test's generator makes them. Without that, the lookup returns the last transaction with the id (MgrLookup.TxByIdFinds).
- MgrScenarios.CrashDuringWriting: stated for blockfile limit 0, as in the test, so that all records stay in blockfile 0. It also assumes that all the blocks added are numbered 1, 2, 3, …, as the test's block generator makes them.
- MgrScenarios.Info: the test checks only the height after ten blocks. The lemma also states the hashes.

=== FILE: block_codec.dfy ===
/** The block codec: a block is serialized into the payload of one record
    and read back from it (serializeBlock and extractSerializedBlockInfo).
    The engine treats the payload as opaque bytes; what it needs from the
    codec is that reading inverts writing and that the serializer reports
    where each transaction envelope sits inside the payload, since the
    transaction index points there. Protobuf is not modelled: a layout built
    from the same varints stands in for it,

      varint(number) ++ varint(#txs) ++ field(hash) ++ field(previousHash)
        ++ for each transaction: field(id) ++ field(envelope)

    where field(s) = varint(|s|) ++ s. */
module BlockCodec {
  import opened Types
  import opened Varint
  import opened Fields

  /** A transaction envelope and the transaction id it carries. */
  datatype Tx = Tx(id: seq<byte>, envelope: seq<byte>)

  /** A block: its number, its header hash, the hash of its predecessor and
      its transactions, in order. The hash is carried, not computed. */
  datatype Block = Block(number: uint64, hash: seq<byte>, previousHash: seq<byte>, txs: seq<Tx>)

  /** A transaction id and where its envelope's bytes sit inside a
      serialized block. */
  datatype TxOffset = TxOffset(txId: seq<byte>, offset: nat, length: nat)

  /** serializeBlock's result: the payload and the envelope offsets. */
  datatype SerializedBlock = SerializedBlock(bytes: seq<byte>, txOffsets: seq<TxOffset>)

  /** Each transaction as two fields, id then envelope. */
  function TxFields(txs: seq<Tx>): (r: seq<seq<byte>>)
    ensures |r| == 2 * |txs|
  {
    if txs == [] then [] else [txs[0].id, txs[0].envelope] + TxFields(txs[1..])
  }

  /** The fields of a block's payload, after its two header varints. */
  function BlockFields(b: Block): (fs: seq<seq<byte>>) {
    [b.hash, b.previousHash] + TxFields(b.txs)
  }

  /** Every length the layout writes as a varint fits in a uint64; the
      serializer fails on any other block. */
  predicate Encodable(b: Block) {
    |b.txs| < TWO_64 && AllFit(BlockFields(b))
  }

  /** The transactions a list of fields spells out, two fields each. */
  function Pairs(fs: seq<seq<byte>>): (r: seq<Tx>)
    ensures |r| == |fs| / 2
  {
    if |fs| < 2 then [] else [Tx(fs[0], fs[1])] + Pairs(fs[2..])
  }

  /** The envelope offsets: the id of each pair and the place of its
      second field. */
  function EnvOffsets(fs: seq<seq<byte>>, starts: seq<nat>): (r: seq<TxOffset>)
    requires |starts| == |fs|
    ensures |r| == |fs| / 2
  {
    if |fs| < 2 then [] else [TxOffset(fs[0], starts[1], |fs[1]|)] + EnvOffsets(fs[2..], starts[2..])
  }

  /** The two header varints: the block number and the transaction count. */
  function Header(b: Block): (h: seq<byte>)
    requires Encodable(b)
  {
    EncodeVarints([b.number, |b.txs|])
  }

  /** One offset per transaction, in order, each under that transaction's
      id and as long as its envelope. */
  predicate OffsetsAgree(txs: seq<Tx>, offs: seq<TxOffset>) {
    && |offs| == |txs|
    && forall j :: 0 <= j < |txs| ==> offs[j].txId == txs[j].id && offs[j].length == |txs[j].envelope|
  }

  /** serializeBlock: the payload, and where each envelope sits in it. */
  function Serialize(b: Block): (sb: SerializedBlock)
    requires Encodable(b)
    ensures OffsetsAgree(b.txs, sb.txOffsets)
  {
    var h := Header(b);
    var fs := BlockFields(b);
    assert fs[2..] == TxFields(b.txs);
    PairsTxFields(b.txs);
    OffsetsMatchPairs(fs[2..], FieldStarts(fs, |h|)[2..]);
    SerializedBlock(h + EncodeFields(fs), EnvOffsets(fs[2..], FieldStarts(fs, |h|)[2..]))
  }

  /** extractSerializedBlockInfo: the block a payload holds and where its
      envelopes sit. None when a varint or a field is cut short, and when
      bytes are left over after the last transaction. */
  function Deserialize(p: seq<byte>): (r: Option<(Block, seq<TxOffset>)>)
    ensures r.Some? ==> OffsetsAgree(r.value.0.txs, r.value.1)
  {
    match ReadVarints(p, 2)
    case None => None
    case Some((hd, h)) =>
      var number, count := hd[0], hd[1];
      match ReadFields(p[h..], h, 2 + 2 * (count as nat))
      case None => None
      case Some((fs, starts, m)) =>
        if h + m != |p| then None
        else
          OffsetsMatchPairs(fs[2..], starts[2..]);
          Some((BlockOf(number, fs), EnvOffsets(fs[2..], starts[2..])))
  }

  /** The block a header number and a list of fields spell out. */
  function BlockOf(number: uint64, fs: seq<seq<byte>>): (b: Block)
    requires |fs| >= 2
  {
    Block(number, fs[0], fs[1], Pairs(fs[2..]))
  }

  /** The offsets reported for a list of fields name, in order, the ids and
      envelope lengths of the transactions those fields spell out. */
  lemma {:induction false} OffsetsMatchPairs(fs: seq<seq<byte>>, starts: seq<nat>)
    requires |starts| == |fs|
    ensures forall j :: 0 <= j < |fs| / 2 ==>
              EnvOffsets(fs, starts)[j].txId == Pairs(fs)[j].id && EnvOffsets(fs, starts)[j].length == |Pairs(fs)[j].envelope|
    decreases |fs|
  {
    if |fs| >= 2 {
      OffsetsMatchPairs(fs[2..], starts[2..]);
    }
  }

  /** Pairing up the fields of a transaction list gives the list back. */
  lemma {:induction false} PairsTxFields(txs: seq<Tx>)
    ensures Pairs(TxFields(txs)) == txs
  {
    if txs != [] {
      var fs := TxFields(txs);
      assert fs[2..] == TxFields(txs[1..]);
      PairsTxFields(txs[1..]);
      assert [Tx(txs[0].id, txs[0].envelope)] + txs[1..] == txs;
    }
  }

  /** Deserialize, given what each of its reads returns. */
  lemma DeserializeOf(p: seq<byte>, hd: seq<uint64>, h: nat, fs: seq<seq<byte>>, starts: seq<nat>, m: nat)
    requires ReadVarints(p, 2) == Some((hd, h))
    requires ReadFields(p[h..], h, 2 + 2 * (hd[1] as nat)) == Some((fs, starts, m))
    requires h + m == |p|
    ensures Deserialize(p) == Some((BlockOf(hd[0], fs), EnvOffsets(fs[2..], starts[2..])))
  {
  }

  /** The fields of a block spell out that block. */
  lemma BlockOfFields(b: Block)
    ensures BlockOf(b.number, BlockFields(b)) == b
  {
    assert BlockFields(b)[2..] == TxFields(b.txs);
    PairsTxFields(b.txs);
  }

  /** Byte-level round trip: a header and a list of fields, encoded, read
      back as the same header and fields. */
  lemma PayloadRoundTrip(hd: seq<uint64>, fs: seq<seq<byte>>)
    requires |hd| == 2 && AllFit(fs) && |fs| == 2 + 2 * (hd[1] as nat)
    ensures var h := EncodeVarints(hd);
            Deserialize(h + EncodeFields(fs))
            == Some((BlockOf(hd[0], fs), EnvOffsets(fs[2..], FieldStarts(fs, |h|)[2..])))
  {
    var h, e := EncodeVarints(hd), EncodeFields(fs);
    VarintsRoundTrip(hd, e);
    FieldsRead(fs, |h|);
    DropAppend(h, e);
    DeserializeOf(h + e, hd, |h|, fs, FieldStarts(fs, |h|), |e|);
  }

  /** Round trip: deserializing a serialized block gives back the block and
      the same envelope offsets the serializer reported. */
  lemma SerializeRoundTrip(b: Block)
    requires Encodable(b)
    ensures Deserialize(Serialize(b).bytes) == Some((b, Serialize(b).txOffsets))
  {
    PayloadRoundTrip([b.number, |b.txs|], BlockFields(b));
    BlockOfFields(b);
  }

  /** Offset `o` names transaction `tx` and points, inside `bytes` (which
      start at offset `base` of the payload), at exactly its envelope. */
  predicate EnvelopeAt(bytes: seq<byte>, base: nat, o: TxOffset, tx: Tx) {
    o.txId == tx.id && o.length == |tx.envelope| && FieldAt(bytes, base, o.offset, tx.envelope)
  }

  /** `offs` names every transaction of `txs` and locates its envelope. */
  predicate Locates(bytes: seq<byte>, base: nat, txs: seq<Tx>, offs: seq<TxOffset>) {
    && |offs| == |txs|
    && forall j :: 0 <= j < |offs| ==> EnvelopeAt(bytes, base, offs[j], txs[j])
  }

  /** If every field sits where the reader says, every envelope sits where
      EnvOffsets says. */
  lemma {:induction false} PairsLocate(q: seq<byte>, base: nat, fs: seq<seq<byte>>, starts: seq<nat>)
    requires |starts| == |fs|
    requires AllAt(q, base, fs, starts)
    ensures Locates(q, base, Pairs(fs), EnvOffsets(fs, starts))
    decreases |fs|
  {
    if |fs| >= 2 {
      var fs', starts' := fs[2..], starts[2..];
      assert forall j :: 0 <= j < |fs'| ==> FieldAt(q, base, starts'[j], fs'[j]) by {
        forall j | 0 <= j < |fs'| ensures FieldAt(q, base, starts'[j], fs'[j]) {
          assert starts'[j] == starts[j + 2] && fs'[j] == fs[j + 2];
        }
      }
      PairsLocate(q, base, fs', starts');
      assert FieldAt(q, base, starts[1], fs[1]);
    }
  }

  /** The transaction pairs after the two header fields lie at the offsets `EnvOffsets` computes. */
  lemma PairsLocateFrom(q: seq<byte>, base: nat, fs: seq<seq<byte>>, starts: seq<nat>)
    requires |starts| == |fs| >= 2
    requires AllAt(q, base, fs, starts)
    ensures Locates(q, base, Pairs(fs[2..]), EnvOffsets(fs[2..], starts[2..]))
  {
    var fs', starts' := fs[2..], starts[2..];
    forall j | 0 <= j < |fs'| ensures FieldAt(q, base, starts'[j], fs'[j]) {
      assert starts'[j] == starts[j + 2] && fs'[j] == fs[j + 2];
    }
    PairsLocate(q, base, fs', starts');
  }

  /** What a successful Deserialize read: the two header varints, then
      the fields they announce, ending exactly at the end of the payload. */
  lemma DeserializeParts(p: seq<byte>)
    requires Deserialize(p).Some?
    ensures ReadVarints(p, 2).Some?
    ensures var (hd, h) := ReadVarints(p, 2).value;
            var n := 2 + 2 * (hd[1] as nat);
            && h <= |p|
            && ReadFields(p[h..], h, n).Some?
            && var (fs, starts, m) := ReadFields(p[h..], h, n).value;
               && h + m == |p|
               && Deserialize(p).value.0 == BlockOf(hd[0], fs)
               && Deserialize(p).value.1 == EnvOffsets(fs[2..], starts[2..])
  {
    hide OffsetsAgree;
  }

  /** Whatever payload deserializes, the offsets reported locate the
      envelopes of the block read from it: the transaction index can point
      into the payload. */
  lemma DeserializeLocates(p: seq<byte>)
    requires Deserialize(p).Some?
    ensures Locates(p, 0, Deserialize(p).value.0.txs, Deserialize(p).value.1)
  {
    hide Deserialize, ReadVarints, ReadFields, ReadField;
    DeserializeParts(p);
    var h := ReadVarints(p, 2).value.1;
    var n := 2 + 2 * (ReadVarints(p, 2).value.0[1] as nat);
    LocatesOfFields(p, h, n, Deserialize(p).value.0, Deserialize(p).value.1);
  }

  /** The same, for a block and offsets built from the fields read after
      the header. */
  lemma LocatesOfFields(p: seq<byte>, h: nat, n: nat, b: Block, offs: seq<TxOffset>)
    requires h <= |p| && n >= 2 && ReadFields(p[h..], h, n).Some?
    requires b.txs == Pairs(ReadFields(p[h..], h, n).value.0[2..])
    requires offs == EnvOffsets(ReadFields(p[h..], h, n).value.0[2..], ReadFields(p[h..], h, n).value.1[2..])
    ensures Locates(p, 0, b.txs, offs)
  {
    hide ReadFields, ReadField;
    var r := ReadFields(p[h..], h, n).value;
    ReadFieldsLocateIn(p, h, n);
    PairsLocateFrom(p, 0, r.0, r.1);
  }

  /** The offsets serializeBlock reports locate every envelope in the
      payload it produced. */
  lemma SerializeLocates(b: Block)
    requires Encodable(b)
    ensures Locates(Serialize(b).bytes, 0, b.txs, Serialize(b).txOffsets)
  {
    SerializeRoundTrip(b);
    DeserializeLocates(Serialize(b).bytes);
  }
}

=== FILE: blockfile.dfy ===
/** Blockfiles: append-only files of records, one record per block. A
    record is a field in the sense of the Fields module,

      varint(|payload|) ++ payload

    whose payload is a serialized block. This module reads the record at an
    offset, scans a file record by record (the start-up recovery scan) and
    reads back the bytes an index location names. */
module BlockFile {
  import opened Types
  import opened Varint
  import opened Fields
  import opened BlockCodec

  /** A file location pointer: blockfile suffix, offset and byte length. */
  datatype Location = Location(fileSuffix: nat, offset: nat, length: nat)

  /** What reading a record at an offset yields: the block, its envelope
      offsets inside the payload, the length of the record's length prefix
      and the offset just past the record. */
  datatype RecordInfo = RecordInfo(block: Block, txOffsets: seq<TxOffset>, headerLen: nat, next: nat)

  /** One step of the scan: the file ends exactly here, or a partial or
      malformed record starts here, or a complete record does. */
  datatype Step = End | Partial | Complete(rec: RecordInfo)

  /** A transaction id and the location of its envelope. */
  datatype TxLoc = TxLoc(txId: seq<byte>, loc: Location)

  /** An index entry for one record: the block, the location of its record
      and, for each transaction, its id and the location of its envelope. */
  datatype Entry = Entry(block: Block, loc: Location, txLocs: seq<TxLoc>)

  /** The entries a scan recovered, and the offset at which it stopped. */
  datatype ScanResult = ScanResult(entries: seq<Entry>, end: nat)

  /** The record a file holds at `off`. ShortRead when the length prefix is
      incomplete or announces more bytes than the file holds after it;
      MalformedRecord when the payload does not decode as a block. */
  function ReadRecord(f: seq<byte>, off: nat): (r: Result<RecordInfo>)
    requires off <= |f|
    ensures r.Success? ==> off < r.value.next <= |f|
    ensures r.Failure? ==> r.error in {ShortRead, MalformedRecord}
  {
    match ReadField(f[off..])
    case None => Failure(ShortRead)
    case Some((payload, k)) =>
      match Deserialize(payload)
      case None => Failure(MalformedRecord)
      case Some((b, offs)) => Success(RecordInfo(b, offs, k - |payload|, off + k))
  }

  /** The scan's view of the bytes at `off`. */
  function NextStep(f: seq<byte>, off: nat): (r: Step)
    requires off <= |f|
  {
    if off == |f| then End
    else match ReadRecord(f, off)
      case Failure(_) => Partial
      case Success(rec) => Complete(rec)
  }

  /** The locations of a block's envelopes, given where its payload starts. */
  function TxLocs(i: nat, base: nat, offs: seq<TxOffset>): (r: seq<TxLoc>)
    ensures |r| == |offs|
  {
    seq(|offs|, j requires 0 <= j < |offs| => TxLoc(offs[j].txId, Location(i, base + offs[j].offset, offs[j].length)))
  }

  /** The entry for a record of blockfile `i` that starts at `off`. */
  function EntryOf(i: nat, off: nat, rec: RecordInfo): (e: Entry)
    requires off <= rec.next
  {
    Entry(rec.block, Location(i, off, rec.next - off), TxLocs(i, off + rec.headerLen, rec.txOffsets))
  }

  /** The recovery scan of blockfile `i` from `off`: record after record
      until the file ends or a record is partial or malformed. */
  function ScanFile(f: seq<byte>, i: nat, off: nat): (r: ScanResult)
    requires off <= |f|
    ensures off <= r.end <= |f|
    decreases |f| - off
  {
    match NextStep(f, off)
    case End => ScanResult([], off)
    case Partial => ScanResult([], off)
    case Complete(rec) =>
      var rest := ScanFile(f, i, rec.next);
      ScanResult([EntryOf(i, off, rec)] + rest.entries, rest.end)
  }

  /** A blockfile that the scan reads to its end: it holds whole records
      only. */
  predicate Clean(f: seq<byte>, i: nat) {
    ScanFile(f, i, 0).end == |f|
  }

  /** The block whose record starts at the location's offset. */
  function ReadBlock(files: seq<seq<byte>>, loc: Location): (r: Result<Block>)
    ensures r.Success? ==> loc.fileSuffix < |files| && loc.offset < |files[loc.fileSuffix]|
    ensures r.Failure? ==> r.error in {ShortRead, MalformedRecord}
  {
    if loc.fileSuffix >= |files| || loc.offset > |files[loc.fileSuffix]| then Failure(ShortRead)
    else match ReadRecord(files[loc.fileSuffix], loc.offset)
      case Failure(e) => Failure(e)
      case Success(rec) => Success(rec.block)
  }

  /** The raw bytes a location names (a transaction envelope). */
  function ReadRaw(files: seq<seq<byte>>, loc: Location): (r: Result<seq<byte>>)
    ensures r.Success? ==> |r.value| == loc.length
    ensures r.Failure? <==> loc.fileSuffix >= |files| || loc.offset + loc.length > |files[loc.fileSuffix]|
  {
    if loc.fileSuffix >= |files| || loc.offset + loc.length > |files[loc.fileSuffix]| then Failure(ShortRead)
    else Success(files[loc.fileSuffix][loc.offset .. loc.offset + loc.length])
  }

  // ---------------------------------------------------------------------
  // Reading and scanning under appends and truncation

  /** ReadRecord, given the field read at the offset and the block its
      payload decodes to. */
  lemma ReadRecordOfField(f: seq<byte>, off: nat, payload: seq<byte>, k: nat, b: Block, offs: seq<TxOffset>)
    requires off <= |f| && ReadField(f[off..]) == Some((payload, k))
    requires Deserialize(payload).Some? && Deserialize(payload).value.0 == b && Deserialize(payload).value.1 == offs
    ensures ReadRecord(f, off).Success?
    ensures ReadRecord(f, off).value == RecordInfo(b, offs, k - |payload|, off + k)
  {
  }

  /** ReadRecord, given a field whose payload does not decode. */
  lemma ReadRecordOfJunk(f: seq<byte>, off: nat, payload: seq<byte>, k: nat)
    requires off <= |f| && ReadField(f[off..]) == Some((payload, k))
    requires Deserialize(payload).None?
    ensures ReadRecord(f, off) == Failure(MalformedRecord)
  {
  }

  /** Two files whose bytes from their offsets read as the same field hold
      records that read the same, up to the offset. */
  lemma ReadRecordSameField(f: seq<byte>, off: nat, g: seq<byte>, off': nat)
    requires off <= |f| && off' <= |g|
    requires ReadField(f[off..]) == ReadField(g[off'..])
    ensures ReadRecord(f, off).Success? <==> ReadRecord(g, off').Success?
    ensures ReadRecord(f, off).Success? ==>
              ReadRecord(g, off').value == ReadRecord(f, off).value.(next := ReadRecord(f, off).value.next - off + off')
  {
  }

  /** A record that reads completely is a field that ends at `next`. */
  lemma ReadRecordField(f: seq<byte>, off: nat)
    requires off <= |f| && ReadRecord(f, off).Success?
    ensures ReadField(f[off..]).Some?
    ensures var (payload, k) := ReadField(f[off..]).value;
            var rec := ReadRecord(f, off).value;
            && Deserialize(payload) == Some((rec.block, rec.txOffsets))
            && rec.headerLen == k - |payload| && rec.next == off + k
  {
  }

  /** A record that reads completely keeps reading the same once bytes are
      appended to the file. */
  lemma ReadRecordExtend(f: seq<byte>, more: seq<byte>, off: nat)
    requires off <= |f| && ReadRecord(f, off).Success?
    ensures ReadRecord(f + more, off) == ReadRecord(f, off)
  {
    ReadRecordField(f, off);
    FieldExtendAt(f, more, off);
    ReadRecordSameField(f, off, f + more, off);
  }

  /** ... and once the file is cut anywhere after it. */
  lemma ReadRecordPrefix(f: seq<byte>, c: nat, off: nat)
    requires off <= |f| && ReadRecord(f, off).Success?
    requires ReadRecord(f, off).value.next <= c <= |f|
    ensures ReadRecord(f[..c], off) == ReadRecord(f, off)
  {
    ReadRecordField(f, off);
    FieldPrefixAt(f, c, off);
    ReadRecordSameField(f, off, f[..c], off);
  }

  /** A field read at `off` does not change when bytes are appended after the file. */
  lemma FieldExtendAt(f: seq<byte>, more: seq<byte>, off: nat)
    requires off <= |f| && ReadField(f[off..]).Some?
    ensures ReadField((f + more)[off..]) == ReadField(f[off..])
  {
    var q := f[off..];
    assert (f + more)[off..] == q + more;
    ReadFieldExtend(q, more);
  }

  /** A field read at `off` does not change when the file is cut after the field's end. */
  lemma FieldPrefixAt(f: seq<byte>, c: nat, off: nat)
    requires off <= c <= |f| && ReadField(f[off..]).Some?
    requires off + ReadField(f[off..]).value.1 <= c
    ensures ReadField(f[..c][off..]) == ReadField(f[off..])
  {
    var q := f[off..];
    assert f[..c][off..] == q[..c - off];
    ReadFieldPrefix(q, c - off);
  }

  /** The scan, one complete record at a time. */
  lemma ScanComplete(f: seq<byte>, i: nat, off: nat, rec: RecordInfo)
    requires off < |f| && ReadRecord(f, off).Success? && ReadRecord(f, off).value == rec
    ensures ScanFile(f, i, off)
         == ScanResult([EntryOf(i, off, rec)] + ScanFile(f, i, rec.next).entries, ScanFile(f, i, rec.next).end)
  {
  }

  /** A scan that got past `off` read a complete record there. */
  lemma ScanAdvances(f: seq<byte>, i: nat, off: nat)
    requires off <= |f| && ScanFile(f, i, off).end != off
    ensures off < |f| && ReadRecord(f, off).Success?
    ensures var rec := ReadRecord(f, off).value;
            ScanFile(f, i, off)
            == ScanResult([EntryOf(i, off, rec)] + ScanFile(f, i, rec.next).entries, ScanFile(f, i, rec.next).end)
  {
  }

  /** The scan stops where the file ends or a record does not read. */
  lemma ScanStops(f: seq<byte>, i: nat, off: nat)
    requires off <= |f| && (off == |f| || ReadRecord(f, off).Failure?)
    ensures ScanFile(f, i, off) == ScanResult([], off)
  {
  }

  /** Scanning a file that holds whole records from `off` on, with bytes
      appended: the old records, then whatever the appended bytes hold. */
  lemma {:induction false} ScanExtend(f: seq<byte>, more: seq<byte>, i: nat, off: nat)
    requires off <= |f| && ScanFile(f, i, off).end == |f|
    ensures var tail := ScanFile(f + more, i, |f|);
            ScanFile(f + more, i, off) == ScanResult(ScanFile(f, i, off).entries + tail.entries, tail.end)
    decreases |f| - off
  {
    hide Deserialize, ReadField;
    if off < |f| {
      ScanAdvances(f, i, off);
      var rec := ReadRecord(f, off).value;
      ReadRecordExtend(f, more, off);
      ScanComplete(f + more, i, off, rec);
      ScanExtend(f, more, i, rec.next);
      var e, a, b := EntryOf(i, off, rec), ScanFile(f, i, rec.next).entries, ScanFile(f + more, i, |f|).entries;
      SeqAssoc([e], a, b);
    } else {
      ScanStops(f, i, off);
      var tail := ScanFile(f + more, i, |f|);
      assert [] + tail.entries == tail.entries;
    }
  }

  /** Scanning the file cut where its scan stopped finds the same records
      and reads the cut file to its end. */
  lemma {:induction false} ScanTruncate(f: seq<byte>, i: nat, off: nat)
    requires off <= |f|
    ensures var r := ScanFile(f, i, off);
            ScanFile(f[..r.end], i, off) == ScanResult(r.entries, r.end)
    decreases |f| - off
  {
    var r := ScanFile(f, i, off);
    if NextStep(f, off).Complete? {
      var rec := ReadRecord(f, off).value;
      ReadRecordPrefix(f, r.end, off);
      ScanTruncate(f, i, rec.next);
    }
  }

  /** Cutting a file anywhere past where its scan stops does not let the
      scan get further. */
  lemma {:induction false} ScanStopsInPrefix(f: seq<byte>, i: nat, off: nat, t: nat)
    requires off <= |f| && ScanFile(f, i, off).end < t <= |f|
    ensures ScanFile(f[..t], i, off).end == ScanFile(f, i, off).end
    decreases |f| - off
  {
    if NextStep(f, off).Complete? {
      var rec := ReadRecord(f, off).value;
      ReadRecordPrefix(f, t, off);
      ScanStopsInPrefix(f, i, rec.next, t);
    } else if ReadRecord(f[..t], off).Success? {
      assert f[..t] + f[t..] == f;
      ReadRecordExtend(f[..t], f[t..], off);
      assert false;
    }
  }

  /** The scan stops at the end of the longest clean prefix of a file. */
  lemma LongestCleanPrefix(f: seq<byte>, i: nat)
    ensures forall t :: ScanFile(f, i, 0).end < t <= |f| ==> !Clean(f[..t], i)
  {
    forall t | ScanFile(f, i, 0).end < t <= |f|
      ensures !Clean(f[..t], i)
    {
      ScanStopsInPrefix(f, i, 0, t);
    }
  }

  /** The field just appended reads back as the payload and its length. */
  lemma FieldAppendedAt(f: seq<byte>, p: seq<byte>)
    requires Fits(p)
    ensures ReadField((f + Field(p))[|f|..]) == Some((p, |Field(p)|))
  {
    assert (f + Field(p))[|f|..] == Field(p) + [];
    ReadFieldAt(p, []);
  }

  /** The record appended for a payload that decodes as block `b`, read
      where it was appended. */
  lemma ReadAppended(f: seq<byte>, p: seq<byte>, b: Block, offs: seq<TxOffset>)
    requires Fits(p)
    requires Deserialize(p).Some? && Deserialize(p).value.0 == b && Deserialize(p).value.1 == offs
    ensures ReadRecord(f + Field(p), |f|).Success?
    ensures ReadRecord(f + Field(p), |f|).value == RecordInfo(b, offs, |EncodeVarint(|p|)|, |f| + |Field(p)|)
  {
    FieldAppendedAt(f, p);
    ReadRecordOfField(f + Field(p), |f|, p, |Field(p)|, b, offs);
  }

  /** Appending such a record to a file that holds whole records: the scan
      finds the old records, then exactly one entry for the new block, and
      reads the file to its end. */
  lemma ScanAppend(f: seq<byte>, i: nat, p: seq<byte>, b: Block, offs: seq<TxOffset>)
    requires Clean(f, i) && Fits(p)
    requires Deserialize(p).Some? && Deserialize(p).value.0 == b && Deserialize(p).value.1 == offs
    ensures var rec := RecordInfo(b, offs, |EncodeVarint(|p|)|, |f| + |Field(p)|);
            ScanFile(f + Field(p), i, 0) == ScanResult(ScanFile(f, i, 0).entries + [EntryOf(i, |f|, rec)], |f| + |Field(p)|)
  {
    var g := f + Field(p);
    var rec := RecordInfo(b, offs, |EncodeVarint(|p|)|, |f| + |Field(p)|);
    ReadAppended(f, p, b, offs);
    ScanExtend(f, Field(p), i, 0);
    ScanComplete(g, i, |f|, rec);
    ScanStops(g, i, |g|);
    SnocEmpty(ScanFile(f, i, 0).entries, EntryOf(i, |f|, rec));
  }

  /** Appending `[e] + []` is appending `[e]`. */
  lemma SnocEmpty(a: seq<Entry>, e: Entry)
    ensures a + ([e] + []) == a + [e]
  {
  }

  /** A crash in the middle of appending a record leaves a strict prefix of
      it at the end of the file; from there the scan finds nothing. */
  lemma ScanTornTail(f: seq<byte>, i: nat, q: seq<byte>, k: nat)
    requires Fits(q) && k < |Field(q)|
    ensures ScanFile(f + Field(q)[..k], i, |f|) == ScanResult([], |f|)
  {
    var g := f + Field(q)[..k];
    if k > 0 {
      assert g[|f|..] == Field(q)[..k];
      FieldCut(q, k);
    }
  }

  /** A whole record whose payload is not a block (random bytes, say) ends
      the scan just the same. */
  lemma ScanMalformedTail(f: seq<byte>, i: nat, q: seq<byte>)
    requires Fits(q) && Deserialize(q).None?
    ensures ScanFile(f + Field(q), i, |f|) == ScanResult([], |f|)
  {
    FieldAppendedAt(f, q);
    ReadRecordOfJunk(f + Field(q), |f|, q, |Field(q)|);
    ScanStops(f + Field(q), i, |f|);
  }

  // ---------------------------------------------------------------------
  // Soundness of scanned entries

  /** An entry of blockfile `i` tells the truth about `f`: its location
      holds the record of its block and each transaction location holds
      that transaction's envelope. */
  predicate EntrySound(f: seq<byte>, i: nat, e: Entry) {
    && e.loc.fileSuffix == i
    && e.loc.offset < |f|
    && ReadRecord(f, e.loc.offset).Success?
    && ReadRecord(f, e.loc.offset).value.block == e.block
    && TxsSound(f, i, e)
  }

  /** The transaction locations of an entry name its block's transactions
      and hold their envelopes. */
  predicate TxsSound(f: seq<byte>, i: nat, e: Entry) {
    && |e.txLocs| == |e.block.txs|
    && forall j :: 0 <= j < |e.txLocs| ==> TxLocSound(f, i, e.txLocs[j], e.block.txs[j])
  }

  /** The transaction location lies in file `i` and covers exactly the envelope of `tx`. */
  predicate TxLocSound(f: seq<byte>, i: nat, t: TxLoc, tx: Tx) {
    && t.txId == tx.id
    && t.loc.fileSuffix == i
    && t.loc.offset + t.loc.length <= |f|
    && f[t.loc.offset .. t.loc.offset + t.loc.length] == tx.envelope
  }

  /** A slice of a slice is one slice of the original sequence. */
  lemma SliceOfSlice(f: seq<byte>, a: nat, b: nat, c: nat, d: nat)
    requires a <= b <= |f| && c <= d <= b - a
    ensures f[a..b][c..d] == f[a + c .. a + d]
  {
    assert forall k :: 0 <= k < d - c ==> f[a..b][c..d][k] == f[a + c .. a + d][k];
  }

  /** The payload of a field read at `off` is the file's bytes just before
      the end of the field. */
  lemma PayloadAt(f: seq<byte>, off: nat)
    requires off <= |f| && ReadField(f[off..]).Some?
    ensures var (payload, k) := ReadField(f[off..]).value;
            off + k <= |f| && payload == f[off + k - |payload| .. off + k]
  {
    var q := f[off..];
    var (payload, k) := ReadField(q).value;
    ReadFieldContents(q);
    SliceOfSlice(f, off, |f|, k - |payload|, k);
  }

  /** Envelope offsets that locate the envelopes inside a payload stored at
      `start` of a file give transaction locations that hold them. */
  lemma TxLocsSound(f: seq<byte>, i: nat, start: nat, payload: seq<byte>, txs: seq<Tx>, offs: seq<TxOffset>)
    requires start + |payload| <= |f| && payload == f[start .. start + |payload|]
    requires Locates(payload, 0, txs, offs)
    ensures forall j :: 0 <= j < |offs| ==> TxLocSound(f, i, TxLocs(i, start, offs)[j], txs[j])
  {
    forall j | 0 <= j < |offs|
      ensures TxLocSound(f, i, TxLocs(i, start, offs)[j], txs[j])
    {
      var o := offs[j];
      assert EnvelopeAt(payload, 0, o, txs[j]);
      SliceOfSlice(f, start, start + |payload|, o.offset, o.offset + o.length);
    }
  }

  /** The entry for a field read at `off` whose payload locates its
      block's envelopes. */
  lemma FieldTxsSound(f: seq<byte>, i: nat, off: nat, payload: seq<byte>, k: nat, rec: RecordInfo)
    requires off <= |f| && ReadField(f[off..]) == Some((payload, k))
    requires rec.headerLen == k - |payload| && off <= rec.next
    requires Locates(payload, 0, rec.block.txs, rec.txOffsets)
    ensures TxsSound(f, i, EntryOf(i, off, rec))
  {
    PayloadAt(f, off);
    TxLocsSound(f, i, off + rec.headerLen, payload, rec.block.txs, rec.txOffsets);
  }

  /** The entry for a record that reads completely is sound. */
  lemma RecordSound(f: seq<byte>, i: nat, off: nat)
    requires off < |f| && ReadRecord(f, off).Success?
    ensures EntrySound(f, i, EntryOf(i, off, ReadRecord(f, off).value))
  {
    var rec := ReadRecord(f, off).value;
    ReadRecordField(f, off);
    var (payload, k) := ReadField(f[off..]).value;
    DeserializeLocates(payload);
    FieldTxsSound(f, i, off, payload, k, rec);
  }

  /** Every entry a scan recovers is sound. */
  lemma {:induction false} ScanSound(f: seq<byte>, i: nat, off: nat)
    requires off <= |f|
    ensures forall e <- ScanFile(f, i, off).entries :: EntrySound(f, i, e)
    decreases |f| - off
  {
    if NextStep(f, off).Complete? {
      var rec := ReadRecord(f, off).value;
      RecordSound(f, i, off);
      ScanSound(f, i, rec.next);
    }
  }
}

=== FILE: blockfile_mgr.dfy ===
/** The block-file manager (blockfileMgr): it appends blocks as records to
    the active blockfile, rolls to a new blockfile when a size limit would
    be exceeded, keeps a checkpoint (active suffix, active size, last block
    number) and an index, recovers after a crash by scanning the active
    file, and answers lookups by number, by hash and by transaction id.

    The manager is a value: every operation returns the new state. The
    blockfiles are a sequence, blockfile `i` at position `i`; the last one is
    the active file. */
module BlockfileMgr {
  import opened Types
  import opened Varint
  import opened Fields
  import opened BlockCodec
  import opened BlockFile
  import opened BlockIndex

  /** checkpointInfo: the active blockfile's suffix and size, and the
      number of the last block written. */
  datatype Checkpoint = Checkpoint(fileSuffix: nat, fileSize: nat, lastBlockNumber: uint64)

  /** The checkpoint a manager starts from when none was ever saved. */
  const NoCheckpoint: Checkpoint := Checkpoint(0, 0, 0)

  /** The configuration: the size limit of a blockfile, 0 for none. */
  datatype Conf = Conf(maxFileSize: nat)

  /** getBlockchainInfo's answer: height, hash of the last block and the
      hash that block names as its predecessor. */
  datatype BlockchainInfo = BlockchainInfo(height: uint64, currentHash: seq<byte>, previousHash: seq<byte>)

  /** The answer for a ledger that holds no block. */
  const EmptyInfo: BlockchainInfo := BlockchainInfo(0, [], [])

  /** An open manager: configuration, blockfiles, the checkpoint held in
      memory, the checkpoint last persisted, the index and the blockchain
      info. */
  datatype Mgr = Mgr(conf: Conf, files: seq<seq<byte>>, cp: Checkpoint, saved: Checkpoint,
                     index: Index, info: BlockchainInfo)

  /** What outlives the process: the blockfiles, the persisted checkpoint
      (None when none was ever saved) and the persisted index. */
  datatype Disk = Disk(files: seq<seq<byte>>, saved: Option<Checkpoint>, index: Index)

  /** The in-memory checkpoint names the last blockfile as the active one. */
  predicate Wf(m: Mgr) {
    |m.files| == m.cp.fileSuffix + 1
  }

  /** The blockfile the checkpoint names as the one being written. */
  function Active(m: Mgr): (f: seq<byte>)
    requires Wf(m)
  {
    m.files[m.cp.fileSuffix]
  }

  // ---------------------------------------------------------------------
  // Writing

  /** moveToNextFile: start a new, empty blockfile and persist the
      checkpoint that names it. */
  function MoveToNextFile(m: Mgr): (r: Mgr)
    requires Wf(m)
    ensures Wf(r) && |r.files| == |m.files| + 1 && Active(r) == []
    ensures r.files[..|m.files|] == m.files
    ensures r.cp.lastBlockNumber == m.cp.lastBlockNumber && r.saved == r.cp
  {
    var cp := Checkpoint(m.cp.fileSuffix + 1, 0, m.cp.lastBlockNumber);
    m.(files := m.files + [[]], cp := cp, saved := cp)
  }

  /** Whether a record of `n` bytes makes the manager roll first: only
      under a size limit, and only when the active file would exceed it. */
  predicate ShouldRoll(m: Mgr, n: nat) {
    m.conf.maxFileSize > 0 && m.cp.fileSize + n > m.conf.maxFileSize
  }

  /** The body of addBlock once the block is serialized: roll if needed,
      append the record, then checkpoint, index and update the info. The
      record starts where the checkpoint says the active file ends, and the
      envelope offsets are shifted past the record's length prefix. */
  function AppendRecord(m: Mgr, p: seq<byte>, b: Block, offs: seq<TxOffset>): (r: Mgr)
    requires Wf(m) && Fits(p)
    ensures Wf(r) && r.saved == r.cp && r.cp.lastBlockNumber == b.number && r.conf == m.conf
    ensures r.cp.fileSuffix == m.cp.fileSuffix + (if ShouldRoll(m, |Field(p)|) then 1 else 0)
    ensures r.cp.fileSize == (if ShouldRoll(m, |Field(p)|) then 0 else m.cp.fileSize) + |Field(p)|
    ensures Active(r) == (if ShouldRoll(m, |Field(p)|) then [] else Active(m)) + Field(p)
    ensures r.files[..m.cp.fileSuffix] == m.files[..m.cp.fileSuffix]
    ensures r.info == BlockchainInfo(b.number, b.hash, b.previousHash)
  {
    var rec := Field(p);
    var m1 := if ShouldRoll(m, |rec|) then MoveToNextFile(m) else m;
    var i, off := m1.cp.fileSuffix, m1.cp.fileSize;
    var cp := Checkpoint(i, off + |rec|, b.number);
    var e := EntryOf(i, off, RecordInfo(b, offs, |EncodeVarint(|p|)|, off + |rec|));
    m1.(files := m1.files[i := m1.files[i] + rec], cp := cp, saved := cp,
        index := Record(m1.index, e), info := BlockchainInfo(b.number, b.hash, b.previousHash))
  }

  /** A block the serializer accepts and whose payload length fits the
      record's varint prefix. */
  predicate Storable(b: Block) {
    Encodable(b) && Fits(Serialize(b).bytes)
  }

  /** addBlock: serialize the block and append its record. */
  function AddBlock(m: Mgr, b: Block): (r: Result<Mgr>)
    requires Wf(m)
    ensures r.Success? <==> Storable(b)
    ensures r.Failure? ==> r.error == SerializationFailed
    ensures r.Success? ==> Wf(r.value) && r.value.cp.lastBlockNumber == b.number && r.value.conf == m.conf
  {
    if !Encodable(b) then Failure(SerializationFailed)
    else
      var sb := Serialize(b);
      if !Fits(sb.bytes) then Failure(SerializationFailed)
      else Success(AppendRecord(m, sb.bytes, b, sb.txOffsets))
  }

  /** Adding blocks one after another, stopping at the first failure. */
  function AddBlocks(m: Mgr, bs: seq<Block>): (r: Result<Mgr>)
    requires Wf(m)
    ensures r.Success? <==> forall j :: 0 <= j < |bs| ==> Storable(bs[j])
    ensures r.Success? ==> Wf(r.value) && r.value.conf == m.conf
    ensures r.Success? && bs != [] ==> r.value.cp.lastBlockNumber == bs[|bs| - 1].number
    decreases |bs|
  {
    if bs == [] then Success(m)
    else
      match AddBlock(m, bs[0])
      case Failure(e) => Failure(e)
      case Success(m1) =>
        var r := AddBlocks(m1, bs[1..]);
        StorableSplit(bs);
        assert bs[1..] != [] ==> bs[1..][|bs| - 2] == bs[|bs| - 1];
        r
  }

  /** A run is storable exactly when its first block and its tail are. */
  lemma StorableSplit(bs: seq<Block>)
    requires bs != []
    ensures (forall j :: 0 <= j < |bs| ==> Storable(bs[j]))
            <==> Storable(bs[0]) && forall j :: 0 <= j < |bs| - 1 ==> Storable(bs[1..][j])
  {
    hide Storable;
    assert forall j :: 1 <= j < |bs| ==> bs[1..][j - 1] == bs[j];
  }

  /** currentFileWriter.append: raw bytes at the end of the active file,
      with neither checkpoint nor index told. */
  function RawAppend(m: Mgr, bytes: seq<byte>): (r: Mgr)
    requires Wf(m)
    ensures Wf(r) && Active(r) == Active(m) + bytes && r.cp == m.cp
    ensures r.files[..m.cp.fileSuffix] == m.files[..m.cp.fileSuffix]
    ensures r.saved == m.saved && r.index == m.index && r.info == m.info && r.conf == m.conf
  {
    m.(files := m.files[m.cp.fileSuffix := Active(m) + bytes])
  }

  /** saveCurrentInfo: persist a checkpoint; the one in memory stays. */
  function SaveCurrentInfo(m: Mgr, c: Checkpoint): (r: Mgr)
    ensures r.saved == c && r.cp == m.cp && r.files == m.files
    ensures r.index == m.index && r.info == m.info && r.conf == m.conf
  {
    m.(saved := c)
  }

  /** close, or a crash: what remains is what was persisted. */
  function Close(m: Mgr): (d: Disk)
    ensures d.files == m.files && d.saved == Some(m.saved) && d.index == m.index
  {
    Disk(m.files, Some(m.saved), m.index)
  }

  // ---------------------------------------------------------------------
  // Opening and recovery

  /** The entry of a run that was recorded last. */
  function LastEntry(es: seq<Entry>): (e: Entry)
    requires es != []
  {
    es[|es| - 1]
  }

  /** The info of the ledger whose last block number is `last`, read back
      through the index; CorruptCheckpoint when the index does not know
      that block. */
  function InfoFromIndex(files: seq<seq<byte>>, ix: Index, last: uint64): (r: Result<BlockchainInfo>)
    ensures last == 0 ==> r == Success(EmptyInfo)
    ensures r.Success? ==> r.value.height == last
    ensures r.Failure? ==> r.error in {CorruptCheckpoint, ShortRead, MalformedRecord}
  {
    if last == 0 then Success(EmptyInfo)
    else match Lookup(ix.byNumber, last)
      case None => Failure(CorruptCheckpoint)
      case Some(loc) =>
        match ReadBlock(files, loc)
        case Failure(e) => Failure(e)
        case Success(b) => Success(BlockchainInfo(last, b.hash, b.previousHash))
  }

  /** The active file cut where its recovery scan stopped: a torn or
      malformed tail is dropped, the whole records before it stay. */
  function Cut(f: seq<byte>, i: nat): (g: seq<byte>)
    ensures |g| == ScanFile(f, i, 0).end && g == f[..|g|]
    ensures ScanFile(g, i, 0) == ScanFile(f, i, 0) && Clean(g, i)
    ensures forall t :: |g| < t <= |f| ==> !Clean(f[..t], i)
  {
    ScanTruncate(f, i, 0);
    LongestCleanPrefix(f, i);
    f[..ScanFile(f, i, 0).end]
  }

  /** Recovery when the checkpoint names the last blockfile: the active
      file is scanned from its start and cut where the scan stopped, the
      recovered records are indexed again, and the last block number is the
      last recovered one, or the persisted one when the active file holds
      no whole record. */
  function Recover(conf: Conf, d: Disk, c: Checkpoint): (r: Result<Mgr>)
    requires c.fileSuffix + 1 == |d.files|
    ensures r.Success? ==> Wf(r.value) && r.value.saved == r.value.cp && r.value.conf == conf
    ensures r.Success? ==> r.value.cp.fileSuffix == c.fileSuffix
    ensures r.Success? ==> |Active(r.value)| == r.value.cp.fileSize && Clean(Active(r.value), c.fileSuffix)
    ensures r.Success? ==> r.value.files[..c.fileSuffix] == d.files[..c.fileSuffix]
    ensures r.Success? ==> Recovered(r.value, d, c)
    ensures r.Failure? ==> r.error in {CorruptCheckpoint, ShortRead, MalformedRecord}
  {
    var i := c.fileSuffix;
    var scan := ScanFile(d.files[i], i, 0);
    var files := d.files[i := Cut(d.files[i], i)];
    var last := if scan.entries == [] then c.lastBlockNumber else LastEntry(scan.entries).block.number;
    var cp := Checkpoint(i, scan.end, last);
    WithInfo(Mgr(conf, files, cp, cp, Fold(d.index, scan.entries), EmptyInfo))
  }

  /** What recovery from checkpoint `c` keeps of the disk: the active file
      is the disk's blockfile cut at its last whole record, the index is the
      persisted one with the recovered records indexed again, and the last
      block number is that of the last recovered record, or the persisted
      one when there is none. */
  predicate Recovered(m: Mgr, d: Disk, c: Checkpoint)
    requires Wf(m) && c.fileSuffix < |d.files|
  {
    var i := c.fileSuffix;
    var es := ScanFile(d.files[i], i, 0).entries;
    && Active(m) == Cut(d.files[i], i)
    && m.index == Fold(d.index, es)
    && m.cp.lastBlockNumber == (if es == [] then c.lastBlockNumber else LastEntry(es).block.number)
  }

  /** The checkpoint a disk holds, or NoCheckpoint when none was persisted. */
  function PersistedCheckpoint(d: Disk): (c: Checkpoint)
    ensures d.saved.Some? ==> c == d.saved.value
    ensures d.saved.None? ==> c == NoCheckpoint
  {
    if d.saved.Some? then d.saved.value else NoCheckpoint
  }

  /** The manager with its blockchain info read back through its index. */
  function WithInfo(m: Mgr): (r: Result<Mgr>)
    ensures r.Success? ==> r.value == m.(info := r.value.info)
    ensures r.Failure? ==> r.error in {CorruptCheckpoint, ShortRead, MalformedRecord}
  {
    match InfoFromIndex(m.files, m.index, m.cp.lastBlockNumber)
    case Failure(e) => Failure(e)
    case Success(info) => Success(m.(info := info))
  }

  /** newBlockfileMgr: load the persisted checkpoint (or start from
      NoCheckpoint). When the checkpoint's blockfile does not exist yet the
      ledger is fresh, provided the checkpoint names no block and no file is
      missing before it, and an empty active file is created; otherwise the
      checkpoint must name the last blockfile, which is recovered. The
      checkpoint so obtained is persisted. */
  function Open(conf: Conf, d: Disk): (r: Result<Mgr>)
    ensures r.Success? ==> Wf(r.value) && r.value.saved == r.value.cp && r.value.conf == conf
    ensures r.Success? ==> |Active(r.value)| == r.value.cp.fileSize && Clean(Active(r.value), r.value.cp.fileSuffix)
    ensures r.Success? ==> r.value.cp.fileSuffix <= |d.files|
    ensures r.Success? ==> r.value.files[..r.value.cp.fileSuffix] == d.files[..r.value.cp.fileSuffix]
    ensures r.Success? ==> var c := PersistedCheckpoint(d);
              r.value.cp.fileSuffix == c.fileSuffix
              && (c.fileSuffix < |d.files| ==> Recovered(r.value, d, c))
              && (c.fileSuffix == |d.files| ==> Active(r.value) == [] && r.value.index == d.index && r.value.cp.lastBlockNumber == 0)
    ensures r.Failure? ==> r.error in {CorruptCheckpoint, ShortRead, MalformedRecord}
  {
    var c := PersistedCheckpoint(d);
    if c.fileSuffix == |d.files| then
      if c.lastBlockNumber != 0 then Failure(CorruptCheckpoint)
      else
        var cp := Checkpoint(c.fileSuffix, 0, 0);
        assert ScanFile([], c.fileSuffix, 0).end == 0;
        assert (d.files + [[]])[..c.fileSuffix] == d.files;
        Success(Mgr(conf, d.files + [[]], cp, cp, d.index, EmptyInfo))
    else if c.fileSuffix + 1 != |d.files| then Failure(CorruptCheckpoint)
    else Recover(conf, d, c)
  }

  // ---------------------------------------------------------------------
  // Reading

  /** retrieveBlockByNumber. */
  function ByNumber(m: Mgr, n: uint64): (r: Result<Block>)
    ensures r.Failure? ==> r.error in {NotFound, ShortRead, MalformedRecord}
    ensures (r.Failure? && r.error == NotFound) <==> n !in m.index.byNumber
  {
    match Lookup(m.index.byNumber, n)
    case None => Failure(NotFound)
    case Some(loc) => ReadBlock(m.files, loc)
  }

  /** retrieveBlockByHash. */
  function ByHash(m: Mgr, h: seq<byte>): (r: Result<Block>)
    ensures r.Failure? ==> r.error in {NotFound, ShortRead, MalformedRecord}
    ensures (r.Failure? && r.error == NotFound) <==> h !in m.index.byHash
  {
    match Lookup(m.index.byHash, h)
    case None => Failure(NotFound)
    case Some(loc) => ReadBlock(m.files, loc)
  }

  /** retrieveTransactionByID: the envelope bytes the index points at. */
  function TxById(m: Mgr, id: seq<byte>): (r: Result<seq<byte>>)
    ensures r.Failure? ==> r.error in {NotFound, ShortRead}
    ensures (r.Failure? && r.error == NotFound) <==> id !in m.index.byTx
    ensures r.Success? ==> id in m.index.byTx && |r.value| == m.index.byTx[id].length
  {
    match Lookup(m.index.byTx, id)
    case None => Failure(NotFound)
    case Some(loc) => ReadRaw(m.files, loc)
  }

  /** getBlockchainInfo. Under the invariant the height is the last block
      number, the hashes are those of the last block stored, and a ledger
      without blocks reports height 0 and no hashes. */
  function GetBlockchainInfo(m: Mgr): (info: BlockchainInfo)
    ensures Inv(m) ==> info.height == m.cp.lastBlockNumber
    ensures Inv(m) && AllEntries(m.files) == [] ==> info == EmptyInfo
    ensures Inv(m) && AllEntries(m.files) != [] ==>
              var b := LastEntry(AllEntries(m.files)).block;
              info.currentHash == b.hash && info.previousHash == b.previousHash
  {
    m.info
  }

  /** retrieveBlocks as a finished iteration: the blocks numbered `start`
      up to the last block number, read by number, stopping at the first
      error. */
  function BlocksFrom(m: Mgr, start: nat): (r: Result<seq<Block>>)
    ensures r.Success? ==> |r.value| == if start <= m.cp.lastBlockNumber then m.cp.lastBlockNumber - start + 1 else 0
    decreases m.cp.lastBlockNumber + 1 - start
  {
    if start > m.cp.lastBlockNumber then Success([])
    else
      match ByNumber(m, start)
      case Failure(e) => Failure(e)
      case Success(b) =>
        match BlocksFrom(m, start + 1)
        case Failure(e) => Failure(e)
        case Success(rest) => Success([b] + rest)
  }

  /** Blocks read so far, in front of a result still to come. */
  function Prepend(acc: seq<Block>, r: Result<seq<Block>>): (joined: Result<seq<Block>>) {
    if r.Failure? then r else Success(acc + r.value)
  }

  /** The block iterator driven to its end: Next() by Next(), collecting
      the blocks. */
  method RetrieveBlocks(m: Mgr, start: nat) returns (r: Result<seq<Block>>)
    ensures r == BlocksFrom(m, start)
  {
    hide ByNumber;
    var acc: seq<Block> := [];
    var n := start;
    PrependNil(BlocksFrom(m, start));
    while n <= m.cp.lastBlockNumber
      invariant start <= n
      invariant n <= start || n <= m.cp.lastBlockNumber + 1
      invariant BlocksFrom(m, start) == Prepend(acc, BlocksFrom(m, n))
      decreases m.cp.lastBlockNumber + 1 - n
    {
      var b := ByNumber(m, n);
      if b.Failure? {
        return Failure(b.error);
      }
      PrependStep(acc, b.value, BlocksFrom(m, n + 1));
      acc := acc + [b.value];
      n := n + 1;
    }
    assert acc + [] == acc;
    return Success(acc);
  }

  /** Prepending no blocks leaves a result unchanged. */
  lemma PrependNil(r: Result<seq<Block>>)
    ensures Prepend([], r) == r
  {
    if r.Success? {
      assert [] + r.value == r.value;
    }
  }

  /** Prepending blocks one at a time is prepending them all at once. */
  lemma PrependStep(acc: seq<Block>, b: Block, r: Result<seq<Block>>)
    ensures Prepend(acc, if r.Failure? then r else Success([b] + r.value)) == Prepend(acc + [b], r)
  {
    if r.Success? {
      assert acc + ([b] + r.value) == acc + [b] + r.value;
    }
  }

  // ---------------------------------------------------------------------
  // The invariant

  /** The entries of all blockfiles, as the scan reads them, in file
      order. */
  function AllEntries(files: seq<seq<byte>>): (es: seq<Entry>)
    decreases |files|
  {
    if files == [] then [] else AllEntries(files[..|files| - 1]) + ScanFile(files[|files| - 1], |files| - 1, 0).entries
  }

  /** The blocks of a run of entries. */
  function Blocks(es: seq<Entry>): (bs: seq<Block>)
    ensures |bs| == |es| && forall j :: 0 <= j < |es| ==> bs[j] == es[j].block
  {
    seq(|es|, j requires 0 <= j < |es| => es[j].block)
  }

  /** The number of the last block of a run, 0 for none. */
  function LastNumber(es: seq<Entry>): (n: uint64) {
    if es == [] then 0 else LastEntry(es).block.number
  }

  /** The blockchain info of a run of entries. */
  function InfoOf(es: seq<Entry>): (info: BlockchainInfo) {
    if es == [] then EmptyInfo
    else var b := LastEntry(es).block; BlockchainInfo(b.number, b.hash, b.previousHash)
  }

  /** Block numbers start at 1: 0 is the "no block" of the checkpoint. */
  predicate Numbered(es: seq<Entry>) {
    forall j :: 0 <= j < |es| ==> es[j].block.number >= 1
  }

  /** Every blockfile holds whole records and nothing after them. */
  predicate AllClean(files: seq<seq<byte>>) {
    forall i :: 0 <= i < |files| ==> Clean(files[i], i)
  }

  /** What an open manager keeps true: every blockfile holds whole records
      only; the checkpoint names the end of the active file and is
      persisted; the index, the last block number and the info are those of
      the blocks the files hold. */
  predicate Inv(m: Mgr) {
    && Wf(m)
    && |Active(m)| == m.cp.fileSize
    && m.saved == m.cp
    && AllClean(m.files)
    && var es := AllEntries(m.files);
       && m.index == Fold(EmptyIndex, es)
       && Numbered(es)
       && m.cp.lastBlockNumber == LastNumber(es)
       && m.info == InfoOf(es)
  }
}

=== FILE: fields.dfy ===
/** Length-prefixed fields and runs of varints: the two building blocks of
    the block payload layout. A field is varint(|s|) ++ s, as protobuf
    writes a `bytes` value (Go's proto.Buffer EncodeRawBytes and
    DecodeRawBytes). Every reader works on the bytes still unread and
    reports how many it consumed; offsets it reports are absolute, counted
    from `base`, the offset at which the unread bytes start. */
module Fields {
  import opened Types
  import opened Varint

  /** A byte string whose length a varint can carry. */
  predicate Fits(s: seq<byte>) {
    |s| < TWO_64
  }

  /** Every string of the list fits. */
  predicate AllFit(fs: seq<seq<byte>>) {
    fs == [] || (Fits(fs[0]) && AllFit(fs[1..]))
  }

  /** A length-prefixed field. */
  function Field(s: seq<byte>): (f: seq<byte>)
    requires Fits(s)
  {
    EncodeVarint(|s|) + s
  }

  /** Fields written one after another. */
  function EncodeFields(fs: seq<seq<byte>>): (bytes: seq<byte>)
    requires AllFit(fs)
  {
    if fs == [] then [] else Field(fs[0]) + EncodeFields(fs[1..])
  }

  /** Where the contents of each field of EncodeFields(fs) start, when the
      encoding itself starts at offset `base`. */
  function FieldStarts(fs: seq<seq<byte>>, base: nat): (r: seq<nat>)
    requires AllFit(fs)
    ensures |r| == |fs|
  {
    if fs == [] then []
    else [base + |EncodeVarint(|fs[0]|)|] + FieldStarts(fs[1..], base + |Field(fs[0])|)
  }

  /** A varint at the start of `q`, and its length; None when `q` does not
      start with a complete varint. */
  function ReadVarint(q: seq<byte>): (r: Option<(uint64, nat)>)
    ensures r.Some? ==> 0 < r.value.1 <= |q|
  {
    var d := DecodeVarint(q);
    if d.1 == 0 then None else Some(d)
  }

  /** A field at the start of `q`: its contents and the number of bytes
      it takes. None when the length prefix is incomplete or declares more
      bytes than `q` holds. */
  function ReadField(q: seq<byte>): (r: Option<(seq<byte>, nat)>)
    ensures r.Some? ==> |r.value.0| < r.value.1 <= |q|
  {
    match ReadVarint(q)
    case None => None
    case Some((len, n)) =>
      if len > |q| - n then None else Some((q[n..n + len], n + len))
  }

  /** `count` fields in a row: their contents, the absolute offset of each
      one's contents, and the number of bytes they take. */
  function ReadFields(q: seq<byte>, base: nat, count: nat): (r: Option<(seq<seq<byte>>, seq<nat>, nat)>)
    ensures r.Some? ==> |r.value.0| == count && |r.value.1| == count && r.value.2 <= |q|
    decreases count
  {
    if count == 0 then Some(([], [], 0))
    else
      match ReadField(q)
      case None => None
      case Some((s, k)) =>
        match ReadFields(q[k..], base + k, count - 1)
        case None => None
        case Some((ss, starts, m)) => Some(([s] + ss, [base + k - |s|] + starts, k + m))
  }

  /** Varints written one after another. */
  function EncodeVarints(xs: seq<uint64>): (bytes: seq<byte>) {
    if xs == [] then [] else EncodeVarint(xs[0]) + EncodeVarints(xs[1..])
  }

  /** `count` varints in a row, and the number of bytes they take. */
  function ReadVarints(q: seq<byte>, count: nat): (r: Option<(seq<uint64>, nat)>)
    ensures r.Some? ==> |r.value.0| == count && r.value.1 <= |q|
    decreases count
  {
    if count == 0 then Some(([], 0))
    else
      match ReadVarint(q)
      case None => None
      case Some((x, k)) =>
        match ReadVarints(q[k..], count - 1)
        case None => None
        case Some((xs, m)) => Some(([x] + xs, k + m))
  }

  // ---------------------------------------------------------------------
  // Small sequence facts, kept apart so that they are proved in a context
  // free of the readers

  /** A non-empty sequence is its head followed by its tail. */
  lemma ConsTail<T>(xs: seq<T>)
    requires xs != []
    ensures [xs[0]] + xs[1..] == xs
  {
  }

  /** Appending nothing leaves a byte string unchanged. */
  lemma NoRest(q: seq<byte>)
    ensures q + [] == q
  {
  }

  /** A byte string is its prefix of length `k` followed by the rest. */
  lemma SplitAt(q: seq<byte>, k: nat)
    requires k <= |q|
    ensures q == q[..k] + q[k..]
  {
  }

  /** Dropping the first operand's length from a concatenation leaves the second operand. */
  lemma DropAppend(a: seq<byte>, b: seq<byte>)
    ensures (a + b)[|a|..] == b
  {
  }

  // ---------------------------------------------------------------------
  // Round trips

  /** A varint reads back, whatever follows it. */
  lemma ReadVarintAt(x: uint64, rest: seq<byte>)
    ensures ReadVarint(EncodeVarint(x) + rest).Some?
    ensures ReadVarint(EncodeVarint(x) + rest).value == (x, |EncodeVarint(x)|)
    ensures (EncodeVarint(x) + rest)[|EncodeVarint(x)|..] == rest
  {
    VarintRoundTrip(x, rest);
    DropAppend(EncodeVarint(x), rest);
  }

  /** One step of ReadVarints: a varint, then whatever the rest reads as. */
  lemma ReadVarintsHead(q: seq<byte>, x: uint64, k: nat, count: nat, xs: seq<uint64>, m: nat)
    requires count >= 1 && ReadVarint(q).Some? && ReadVarint(q).value.0 == x && ReadVarint(q).value.1 == k
    requires ReadVarints(q[k..], count - 1).Some?
    requires ReadVarints(q[k..], count - 1).value.0 == xs && ReadVarints(q[k..], count - 1).value.1 == m
    ensures ReadVarints(q, count).Some?
    ensures ReadVarints(q, count).value.0 == [x] + xs
    ensures ReadVarints(q, count).value.1 == k + m
  {
  }

  /** The first varint of a run, and the bytes after it. */
  lemma EncodeVarintsHead(xs: seq<uint64>, rest: seq<byte>)
    requires xs != []
    ensures var e := EncodeVarint(xs[0]);
            && ReadVarint(EncodeVarints(xs) + rest).Some?
            && ReadVarint(EncodeVarints(xs) + rest).value.0 == xs[0]
            && ReadVarint(EncodeVarints(xs) + rest).value.1 == |e|
            && |e| <= |EncodeVarints(xs) + rest|
            && (EncodeVarints(xs) + rest)[|e|..] == EncodeVarints(xs[1..]) + rest
            && |EncodeVarints(xs)| == |e| + |EncodeVarints(xs[1..])|
  {
    var e, tail := EncodeVarint(xs[0]), EncodeVarints(xs[1..]);
    SeqAssoc(e, tail, rest);
    ReadVarintAt(xs[0], tail + rest);
  }

  /** Round trip: a run of varints reads back as the same values, taking
      exactly the bytes written, whatever follows. */
  lemma {:induction false} VarintsRoundTrip(xs: seq<uint64>, rest: seq<byte>)
    ensures ReadVarints(EncodeVarints(xs) + rest, |xs|).Some?
    ensures ReadVarints(EncodeVarints(xs) + rest, |xs|).value.0 == xs
    ensures ReadVarints(EncodeVarints(xs) + rest, |xs|).value.1 == |EncodeVarints(xs)|
    decreases |xs|
  {
    if xs != [] {
      VarintsRoundTrip(xs[1..], rest);
      VarintsStep(xs, rest);
    }
  }

  /** One step of `ReadVarints` over `EncodeVarints`: decoding the head varint, then the tail as the induction hypothesis gives it. */
  lemma VarintsStep(xs: seq<uint64>, rest: seq<byte>)
    requires xs != []
    requires ReadVarints(EncodeVarints(xs[1..]) + rest, |xs| - 1).Some?
    requires ReadVarints(EncodeVarints(xs[1..]) + rest, |xs| - 1).value.0 == xs[1..]
    requires ReadVarints(EncodeVarints(xs[1..]) + rest, |xs| - 1).value.1 == |EncodeVarints(xs[1..])|
    ensures ReadVarints(EncodeVarints(xs) + rest, |xs|).Some?
    ensures ReadVarints(EncodeVarints(xs) + rest, |xs|).value.0 == xs
    ensures ReadVarints(EncodeVarints(xs) + rest, |xs|).value.1 == |EncodeVarints(xs)|
  {
    var q := EncodeVarints(xs) + rest;
    var k := |EncodeVarint(xs[0])|;
    EncodeVarintsHead(xs, rest);
    ReadVarintsHead(q, xs[0], k, |xs|, xs[1..], |EncodeVarints(xs[1..])|);
    ConsTail(xs);
  }

  /** A field reads back, whatever follows it. */
  lemma ReadFieldAt(s: seq<byte>, rest: seq<byte>)
    requires Fits(s)
    ensures ReadField(Field(s) + rest).Some?
    ensures ReadField(Field(s) + rest).value.0 == s
    ensures ReadField(Field(s) + rest).value.1 == |Field(s)|
    ensures (Field(s) + rest)[|Field(s)|..] == rest
  {
    var e := EncodeVarint(|s|);
    SeqAssoc(e, s, rest);
    VarintRoundTrip(|s|, s + rest);
    assert (e + (s + rest))[|e|..|e| + |s|] == s;
    DropAppend(Field(s), rest);
  }

  /** One step of ReadFields: a field, then whatever the rest reads as. */
  lemma ReadFieldsHead(q: seq<byte>, s: seq<byte>, k: nat, base: nat, count: nat,
                       ss: seq<seq<byte>>, starts: seq<nat>, m: nat)
    requires count >= 1 && ReadField(q).Some? && ReadField(q).value.0 == s && ReadField(q).value.1 == k
    requires ReadFields(q[k..], base + k, count - 1).Some?
    requires ReadFields(q[k..], base + k, count - 1).value.0 == ss
    requires ReadFields(q[k..], base + k, count - 1).value.1 == starts
    requires ReadFields(q[k..], base + k, count - 1).value.2 == m
    ensures ReadFields(q, base, count).Some?
    ensures ReadFields(q, base, count).value.0 == [s] + ss
    ensures ReadFields(q, base, count).value.1 == [base + k - |s|] + starts
    ensures ReadFields(q, base, count).value.2 == k + m
  {
  }

  /** The first field of a run, and the bytes after it. */
  lemma EncodeFieldsHead(fs: seq<seq<byte>>, rest: seq<byte>)
    requires fs != [] && AllFit(fs)
    ensures var f := Field(fs[0]);
            && ReadField(EncodeFields(fs) + rest).Some?
            && ReadField(EncodeFields(fs) + rest).value.0 == fs[0]
            && ReadField(EncodeFields(fs) + rest).value.1 == |f|
            && |f| <= |EncodeFields(fs) + rest|
            && (EncodeFields(fs) + rest)[|f|..] == EncodeFields(fs[1..]) + rest
            && |EncodeFields(fs)| == |f| + |EncodeFields(fs[1..])|
            && |f| - |fs[0]| == |EncodeVarint(|fs[0]|)|
  {
    var f, tail := Field(fs[0]), EncodeFields(fs[1..]);
    SeqAssoc(f, tail, rest);
    ReadFieldAt(fs[0], tail + rest);
  }

  /** Round trip: a run of fields reads back as the same strings, at the
      offsets FieldStarts computes, taking exactly the bytes written,
      whatever follows. */
  lemma {:induction false} FieldsRoundTrip(fs: seq<seq<byte>>, base: nat, rest: seq<byte>)
    requires AllFit(fs)
    ensures ReadFields(EncodeFields(fs) + rest, base, |fs|).Some?
    ensures ReadFields(EncodeFields(fs) + rest, base, |fs|).value.0 == fs
    ensures ReadFields(EncodeFields(fs) + rest, base, |fs|).value.1 == FieldStarts(fs, base)
    ensures ReadFields(EncodeFields(fs) + rest, base, |fs|).value.2 == |EncodeFields(fs)|
    decreases |fs|
  {
    if fs != [] {
      FieldsRoundTrip(fs[1..], base + |Field(fs[0])|, rest);
      FieldsStep(fs, base, rest);
    }
  }

  /** The induction step of the round trip: from the fields after the first
      to all of them. */
  lemma FieldsStep(fs: seq<seq<byte>>, base: nat, rest: seq<byte>)
    requires fs != [] && AllFit(fs)
    requires var f, tail := Field(fs[0]), EncodeFields(fs[1..]);
             && ReadFields(tail + rest, base + |f|, |fs| - 1).Some?
             && ReadFields(tail + rest, base + |f|, |fs| - 1).value.0 == fs[1..]
             && ReadFields(tail + rest, base + |f|, |fs| - 1).value.1 == FieldStarts(fs[1..], base + |f|)
             && ReadFields(tail + rest, base + |f|, |fs| - 1).value.2 == |tail|
    ensures ReadFields(EncodeFields(fs) + rest, base, |fs|).Some?
    ensures ReadFields(EncodeFields(fs) + rest, base, |fs|).value.0 == fs
    ensures ReadFields(EncodeFields(fs) + rest, base, |fs|).value.1 == FieldStarts(fs, base)
    ensures ReadFields(EncodeFields(fs) + rest, base, |fs|).value.2 == |EncodeFields(fs)|
  {
    hide ReadFields, ReadField, ReadVarint, EncodeFields, Field;
    var q := EncodeFields(fs) + rest;
    var f, tail := Field(fs[0]), EncodeFields(fs[1..]);
    EncodeFieldsHead(fs, rest);
    ReadFieldsHead(q, fs[0], |f|, base, |fs|, fs[1..], FieldStarts(fs[1..], base + |f|), |tail|);
    ConsTail(fs);
  }

  /** The round trip with nothing following. */
  lemma FieldsRead(fs: seq<seq<byte>>, base: nat)
    requires AllFit(fs)
    ensures ReadFields(EncodeFields(fs), base, |fs|).Some?
    ensures ReadFields(EncodeFields(fs), base, |fs|).value.0 == fs
    ensures ReadFields(EncodeFields(fs), base, |fs|).value.1 == FieldStarts(fs, base)
    ensures ReadFields(EncodeFields(fs), base, |fs|).value.2 == |EncodeFields(fs)|
  {
    FieldsRoundTrip(fs, base, []);
    NoRest(EncodeFields(fs));
  }

  // ---------------------------------------------------------------------
  // Where the fields sit

  /** `s` sits in `q` (which starts at offset `base`) at offset `start`. */
  predicate FieldAt(q: seq<byte>, base: nat, start: nat, s: seq<byte>) {
    && base <= start
    && start - base + |s| <= |q|
    && q[start - base .. start - base + |s|] == s
  }

  /** FieldAt survives putting bytes in front, counting offsets from the
      new start. */
  lemma FieldAtShift(head: seq<byte>, q: seq<byte>, base: nat, start: nat, s: seq<byte>)
    requires FieldAt(q, base + |head|, start, s)
    ensures FieldAt(head + q, base, start, s)
  {
    var k := start - base - |head|;
    assert (head + q)[|head| + k .. |head| + k + |s|] == q[k .. k + |s|];
  }

  /** All fields of a list sit at their offsets. */
  predicate AllAt(q: seq<byte>, base: nat, ss: seq<seq<byte>>, starts: seq<nat>)
    requires |starts| == |ss|
  {
    forall j :: 0 <= j < |ss| ==> FieldAt(q, base, starts[j], ss[j])
  }

  /** The locating step: a field read at the start of `q`, followed by
      fields that sit at their offsets in the rest of `q`. */
  lemma LocateStep(q: seq<byte>, s: seq<byte>, k: nat, base: nat, ss: seq<seq<byte>>, starts: seq<nat>)
    requires ReadField(q).Some? && ReadField(q).value.0 == s && ReadField(q).value.1 == k && |starts| == |ss|
    requires AllAt(q[k..], base + k, ss, starts)
    ensures AllAt(q, base, [s] + ss, [base + k - |s|] + starts)
  {
    ReadFieldContents(q);
    SplitAt(q, k);
    var ss', starts' := [s] + ss, [base + k - |s|] + starts;
    forall j | 0 <= j < |ss'|
      ensures FieldAt(q, base, starts'[j], ss'[j])
    {
      if j > 0 {
        assert starts'[j] == starts[j - 1] && ss'[j] == ss[j - 1];
        FieldAtShift(q[..k], q[k..], base, starts[j - 1], ss[j - 1]);
      }
    }
  }

  /** One step of ReadFields, read the other way: a successful read of
      `count` fields is a field, then `count - 1` fields after it. */
  lemma ReadFieldsUnfold(q: seq<byte>, base: nat, count: nat)
    requires count > 0 && ReadFields(q, base, count).Some?
    ensures ReadField(q).Some?
    ensures var (s, k) := ReadField(q).value;
            var r := ReadFields(q, base, count).value;
            && ReadFields(q[k..], base + k, count - 1).Some?
            && r.0 == [s] + ReadFields(q[k..], base + k, count - 1).value.0
            && r.1 == [base + k - |s|] + ReadFields(q[k..], base + k, count - 1).value.1
  {
  }

  /** Every field the reader returns sits at the offset it reports. */
  lemma {:induction false} ReadFieldsLocate(q: seq<byte>, base: nat, count: nat)
    requires ReadFields(q, base, count).Some?
    ensures AllAt(q, base, ReadFields(q, base, count).value.0, ReadFields(q, base, count).value.1)
    decreases count
  {
    hide ReadFields, ReadField;
    if count > 0 {
      ReadFieldsUnfold(q, base, count);
      var (s, k) := ReadField(q).value;
      ReadFieldsLocate(q[k..], base + k, count - 1);
      var (ss, starts, _) := ReadFields(q[k..], base + k, count - 1).value;
      LocateStep(q, s, k, base, ss, starts);
    }
  }

  /** The same, for fields read from the part of `p` after its first `h`
      bytes, with offsets counted from the start of `p`. */
  lemma ReadFieldsLocateIn(p: seq<byte>, h: nat, count: nat)
    requires h <= |p| && ReadFields(p[h..], h, count).Some?
    ensures AllAt(p, 0, ReadFields(p[h..], h, count).value.0, ReadFields(p[h..], h, count).value.1)
  {
    ReadFieldsLocate(p[h..], h, count);
    var (ss, starts, _) := ReadFields(p[h..], h, count).value;
    ShiftAll(p[..h], p[h..], 0, ss, starts);
    SplitAt(p, h);
  }

  /** `AllAt` survives putting `head` in front of the bytes, with positions counted from `base` instead of `base + |head|`. */
  lemma ShiftAll(head: seq<byte>, q: seq<byte>, base: nat, ss: seq<seq<byte>>, starts: seq<nat>)
    requires |starts| == |ss| && AllAt(q, base + |head|, ss, starts)
    ensures AllAt(head + q, base, ss, starts)
  {
    forall j | 0 <= j < |ss| ensures FieldAt(head + q, base, starts[j], ss[j]) {
      FieldAtShift(head, q, base, starts[j], ss[j]);
    }
  }

  /** Once a field has been read, bytes appended after the buffer do not
      change what is read. */
  lemma ReadFieldExtend(q: seq<byte>, more: seq<byte>)
    requires ReadField(q).Some?
    ensures ReadField(q + more) == ReadField(q)
  {
    DecodeVarintExtend(q, more);
    var (len, n) := ReadVarint(q).value;
    assert (q + more)[n..n + len] == q[n..n + len];
  }

  /** A strict prefix of a field (a record cut short by a crash) does not
      read as a field: either its length prefix is incomplete or the prefix
      declares more bytes than follow it. */
  lemma FieldCut(s: seq<byte>, k: nat)
    requires Fits(s) && k < |Field(s)|
    ensures ReadField(Field(s)[..k]) == None
  {
    var e := EncodeVarint(|s|);
    var cut := Field(s)[..k];
    if k < |e| {
      assert cut == e[..k];
      VarintCut(|s|, k);
    } else {
      assert cut == e + s[..k - |e|];
      VarintRoundTrip(|s|, s[..k - |e|]);
    }
  }

  /** A field read is the `|s|` bytes just before the offset it returns. */
  lemma ReadFieldContents(q: seq<byte>)
    requires ReadField(q).Some?
    ensures var (s, k) := ReadField(q).value; s == q[k - |s| .. k]
  {
  }

  /** Cutting a buffer anywhere after a complete field does not change the
      field read from it. */
  lemma ReadFieldPrefix(q: seq<byte>, t: nat)
    requires ReadField(q).Some? && ReadField(q).value.1 <= t <= |q|
    ensures ReadField(q[..t]) == ReadField(q)
  {
    var (len, n) := ReadVarint(q).value;
    DecodeVarintPrefix(q, t);
    assert q[..t][n..n + len] == q[n..n + len];
  }
}

=== FILE: index.dfy ===
/** The block index (indexBlock and the index lookups): block number and
    block hash to the location of the block's record, transaction id to the
    location of its envelope. Every map is built by writing keys one after
    another, a later write of a key replacing an earlier one, so each map is
    determined by its sequence of writes: a lookup answers with the last
    write of the key. */
module BlockIndex {
  import opened Types
  import opened BlockCodec
  import opened BlockFile

  /** The three lookup maps. */
  datatype Index = Index(byNumber: map<uint64, Location>, byHash: map<seq<byte>, Location>, byTx: map<seq<byte>, Location>)

  const EmptyIndex: Index := Index(map[], map[], map[])

  /** A map lookup as an option. */
  function Lookup<K>(m: map<K, Location>, k: K): (r: Option<Location>)
    ensures r.Some? <==> k in m
    ensures r.Some? ==> m[k] == r.value
  {
    if k in m then Some(m[k]) else None
  }

  /** The first of two answers that is an answer. */
  function Or<T>(a: Option<T>, b: Option<T>): (r: Option<T>) {
    if a.Some? then a else b
  }

  /** A map after writing keys and locations in order. */
  function Put<K>(m: map<K, Location>, ws: seq<(K, Location)>): (m2: map<K, Location>)
    decreases |ws|
  {
    if ws == [] then m else Put(m, ws[..|ws| - 1])[ws[|ws| - 1].0 := ws[|ws| - 1].1]
  }

  /** The location last written for a key, if any: the reference a map
      built by Put is measured against. */
  function LastWrite<K(==)>(ws: seq<(K, Location)>, k: K): (r: Option<Location>)
    decreases |ws|
  {
    if ws == [] then None
    else if ws[|ws| - 1].0 == k then Some(ws[|ws| - 1].1)
    else LastWrite(ws[..|ws| - 1], k)
  }

  /** A map built by writes answers a key with its last write, and
      otherwise as before the writes. */
  lemma {:induction false} LookupPut<K>(m: map<K, Location>, ws: seq<(K, Location)>, k: K)
    ensures Lookup(Put(m, ws), k) == Or(LastWrite(ws, k), Lookup(m, k))
    decreases |ws|
  {
    if ws != [] {
      LookupPut(m, ws[..|ws| - 1], k);
    }
  }

  /** The last write in two runs of writes is the last write in the second
      run, or else in the first. */
  lemma {:induction false} LastWriteAppend<K>(a: seq<(K, Location)>, b: seq<(K, Location)>, k: K)
    ensures LastWrite(a + b, k) == Or(LastWrite(b, k), LastWrite(a, k))
    decreases |b|
  {
    if b != [] {
      assert (a + b)[..|a + b| - 1] == a + b[..|b| - 1];
      LastWriteAppend(a, b[..|b| - 1], k);
    } else {
      assert a + b == a;
    }
  }

  /** Maps that answer every lookup alike are equal. */
  lemma MapsEqual<K>(m1: map<K, Location>, m2: map<K, Location>)
    requires forall k :: Lookup(m1, k) == Lookup(m2, k)
    ensures m1 == m2
  {
    assert m1.Keys == m2.Keys by {
      forall k | k in m1 ensures k in m2 { assert Lookup(m1, k).Some?; }
      forall k | k in m2 ensures k in m1 { assert Lookup(m2, k).Some?; }
    }
    forall k | k in m1 ensures m1[k] == m2[k] {
      assert Lookup(m1, k) == Lookup(m2, k);
    }
  }

  /** Writing two runs is writing the first, then the second. */
  lemma PutAppend<K>(m: map<K, Location>, a: seq<(K, Location)>, b: seq<(K, Location)>)
    ensures Put(m, a + b) == Put(Put(m, a), b)
  {
    forall k ensures Lookup(Put(m, a + b), k) == Lookup(Put(Put(m, a), b), k) {
      LookupPut(m, a + b, k);
      LookupPut(Put(m, a), b, k);
      LookupPut(m, a, k);
      LastWriteAppend(a, b, k);
    }
    MapsEqual(Put(m, a + b), Put(Put(m, a), b));
  }

  /** Writing again the last writes a map received leaves it unchanged. */
  lemma PutAgain<K>(m: map<K, Location>, a: seq<(K, Location)>, b: seq<(K, Location)>)
    ensures Put(Put(m, a + b), b) == Put(m, a + b)
  {
    forall k ensures Lookup(Put(Put(m, a + b), b), k) == Lookup(Put(m, a + b), k) {
      LookupPut(Put(m, a + b), b, k);
      LookupPut(m, a + b, k);
      LastWriteAppend(a, b, k);
    }
    MapsEqual(Put(Put(m, a + b), b), Put(m, a + b));
  }

  // ---------------------------------------------------------------------
  // The writes a run of index entries makes

  /** The block-number index writes for the entries, one per entry, in order. */
  function NumberWrites(es: seq<Entry>): (ws: seq<(uint64, Location)>)
    ensures |ws| == |es|
  {
    seq(|es|, j requires 0 <= j < |es| => (es[j].block.number, es[j].loc))
  }

  /** The block-hash index writes for the entries, one per entry, in order. */
  function HashWrites(es: seq<Entry>): (ws: seq<(seq<byte>, Location)>)
    ensures |ws| == |es|
  {
    seq(|es|, j requires 0 <= j < |es| => (es[j].block.hash, es[j].loc))
  }

  /** The transaction-id index writes for one block's transactions, in order. */
  function TxLocWrites(ts: seq<TxLoc>): (ws: seq<(seq<byte>, Location)>)
    ensures |ws| == |ts|
  {
    seq(|ts|, j requires 0 <= j < |ts| => (ts[j].txId, ts[j].loc))
  }

  /** The transaction-id index writes for all the entries, block by block. */
  function TxWrites(es: seq<Entry>): (ws: seq<(seq<byte>, Location)>)
    decreases |es|
  {
    if es == [] then [] else TxWrites(es[..|es| - 1]) + TxLocWrites(es[|es| - 1].txLocs)
  }

  /** indexBlock: record one block's number, hash and transactions. */
  function Record(ix: Index, e: Entry): (ix2: Index) {
    Index(ix.byNumber[e.block.number := e.loc],
          ix.byHash[e.block.hash := e.loc],
          Put(ix.byTx, TxLocWrites(e.txLocs)))
  }

  /** The index after recording a run of entries, in order. */
  function Fold(ix: Index, es: seq<Entry>): (ix2: Index) {
    Index(Put(ix.byNumber, NumberWrites(es)), Put(ix.byHash, HashWrites(es)), Put(ix.byTx, TxWrites(es)))
  }

  /** Each write list of a concatenation is the concatenation of the write lists. */
  lemma WritesAppend(a: seq<Entry>, b: seq<Entry>)
    ensures NumberWrites(a + b) == NumberWrites(a) + NumberWrites(b)
    ensures HashWrites(a + b) == HashWrites(a) + HashWrites(b)
    ensures TxWrites(a + b) == TxWrites(a) + TxWrites(b)
  {
    TxWritesAppend(a, b);
  }

  /** `TxWrites` of a concatenation is the concatenation of the `TxWrites`. */
  lemma {:induction false} TxWritesAppend(a: seq<Entry>, b: seq<Entry>)
    ensures TxWrites(a + b) == TxWrites(a) + TxWrites(b)
    decreases |b|
  {
    if b != [] {
      var n := |b| - 1;
      assert (a + b)[..|a + b| - 1] == a + b[..n];
      TxWritesAppend(a, b[..n]);
      SeqAssoc(TxWrites(a), TxWrites(b[..n]), TxLocWrites(b[n].txLocs));
    } else {
      assert a + b == a;
    }
  }

  /** Recording an entry after a run is recording the longer run. */
  lemma FoldSnoc(ix: Index, es: seq<Entry>, e: Entry)
    ensures Fold(ix, es + [e]) == Record(Fold(ix, es), e)
  {
    WritesAppend(es, [e]);
    assert TxWrites([e]) == TxLocWrites(e.txLocs) by {
      assert [e][..0] == [];
    }
    PutAppend(ix.byNumber, NumberWrites(es), NumberWrites([e]));
    PutAppend(ix.byHash, HashWrites(es), HashWrites([e]));
    PutAppend(ix.byTx, TxWrites(es), TxWrites([e]));
  }

  /** Recording two runs is recording the first, then the second. */
  lemma FoldAppend(ix: Index, a: seq<Entry>, b: seq<Entry>)
    ensures Fold(ix, a + b) == Fold(Fold(ix, a), b)
  {
    WritesAppend(a, b);
    PutAppend(ix.byNumber, NumberWrites(a), NumberWrites(b));
    PutAppend(ix.byHash, HashWrites(a), HashWrites(b));
    PutAppend(ix.byTx, TxWrites(a), TxWrites(b));
  }

  /** Recording again the last entries an index received changes nothing:
      re-indexing the records recovered from the active file is harmless. */
  lemma FoldAgain(ix: Index, a: seq<Entry>, b: seq<Entry>)
    ensures Fold(Fold(ix, a + b), b) == Fold(ix, a + b)
  {
    WritesAppend(a, b);
    PutAgain(ix.byNumber, NumberWrites(a), NumberWrites(b));
    PutAgain(ix.byHash, HashWrites(a), HashWrites(b));
    PutAgain(ix.byTx, TxWrites(a), TxWrites(b));
  }

  /** Recording the same block at the same location twice is recording it
      once. */
  lemma RecordAgain(ix: Index, e: Entry)
    ensures Record(Record(ix, e), e) == Record(ix, e)
  {
    FoldSnoc(ix, [], e);
    FoldAgain(ix, [], [e]);
    FoldSnoc(Fold(ix, [e]), [], e);
    assert [] + [e] == [e];
  }

  // ---------------------------------------------------------------------
  // Reference answers, read off the run of entries

  /** The last entry whose block has number `n`. */
  function LastNumbered(es: seq<Entry>, n: uint64): (r: Option<Entry>)
    ensures r.Some? ==> r.value in es && r.value.block.number == n
    ensures r.None? <==> forall j :: 0 <= j < |es| ==> es[j].block.number != n
    decreases |es|
  {
    if es == [] then None
    else if es[|es| - 1].block.number == n then Some(es[|es| - 1])
    else LastNumbered(es[..|es| - 1], n)
  }

  /** The last entry whose block has hash `h`. */
  function LastHashed(es: seq<Entry>, h: seq<byte>): (r: Option<Entry>)
    ensures r.Some? ==> r.value in es && r.value.block.hash == h
    ensures r.None? <==> forall j :: 0 <= j < |es| ==> es[j].block.hash != h
    decreases |es|
  {
    if es == [] then None
    else if es[|es| - 1].block.hash == h then Some(es[|es| - 1])
    else LastHashed(es[..|es| - 1], h)
  }

  /** The entry at `k` is the last of its number when no later entry has
      that number. */
  lemma {:induction false} LastNumberedAt(es: seq<Entry>, k: nat)
    requires k < |es|
    requires forall j :: k < j < |es| ==> es[j].block.number != es[k].block.number
    ensures LastNumbered(es, es[k].block.number) == Some(es[k])
    decreases |es|
  {
    var n := |es| - 1;
    if k < n {
      assert es[..n][k] == es[k];
      LastNumberedAt(es[..n], k);
    }
  }

  /** The entry at `k` is the last of its hash when no later entry has
      that hash. */
  lemma {:induction false} LastHashedAt(es: seq<Entry>, k: nat)
    requires k < |es|
    requires forall j :: k < j < |es| ==> es[j].block.hash != es[k].block.hash
    ensures LastHashed(es, es[k].block.hash) == Some(es[k])
    decreases |es|
  {
    var n := |es| - 1;
    if k < n {
      assert es[..n][k] == es[k];
      LastHashedAt(es[..n], k);
    }
  }

  /** The location of an entry, if there is one. */
  function Loc(e: Option<Entry>): (r: Option<Location>) {
    if e.Some? then Some(e.value.loc) else None
  }

  /** The number index answers with the location of the last block of
      that number. */
  lemma {:induction false} NumberWritesFind(es: seq<Entry>, n: uint64)
    ensures LastWrite(NumberWrites(es), n) == Loc(LastNumbered(es, n))
    decreases |es|
  {
    if es != [] {
      var k := |es| - 1;
      assert NumberWrites(es)[..k] == NumberWrites(es[..k]);
      NumberWritesFind(es[..k], n);
    }
  }

  /** The hash index answers with the location of the last block of that
      hash. */
  lemma {:induction false} HashWritesFind(es: seq<Entry>, h: seq<byte>)
    ensures LastWrite(HashWrites(es), h) == Loc(LastHashed(es, h))
    decreases |es|
  {
    if es != [] {
      var k := |es| - 1;
      assert HashWrites(es)[..k] == HashWrites(es[..k]);
      HashWritesFind(es[..k], h);
    }
  }

  /** Lookups in an index built from the empty index by recording a run
      of entries. */
  lemma FoldLookups(es: seq<Entry>, n: uint64, h: seq<byte>, id: seq<byte>)
    ensures Lookup(Fold(EmptyIndex, es).byNumber, n) == Loc(LastNumbered(es, n))
    ensures Lookup(Fold(EmptyIndex, es).byHash, h) == Loc(LastHashed(es, h))
    ensures Lookup(Fold(EmptyIndex, es).byTx, id) == LastWrite(TxWrites(es), id)
  {
    LookupPut(map[], NumberWrites(es), n);
    NumberWritesFind(es, n);
    LookupPut(map[], HashWrites(es), h);
    HashWritesFind(es, h);
    LookupPut(map[], TxWrites(es), id);
  }
}

=== FILE: mgr_invariant.dfy ===
/** The manager's invariant is established by opening a fresh ledger and
    kept by every write: rolling to a new blockfile, appending a record,
    adding blocks. Each write adds exactly the entry of the new block to the
    entries the blockfiles hold. */
module MgrInvariant {
  import opened Types
  import opened Varint
  import opened Fields
  import opened BlockCodec
  import opened BlockFile
  import opened BlockIndex
  import opened BlockfileMgr

  /** The manager a fresh ledger opens as. */
  const FreshDisk: Disk := Disk([], None, EmptyIndex)

  /** Opening a ledger that has nothing on disk succeeds with one empty
      blockfile, no block, height 0 and no hashes. */
  lemma OpenFresh(conf: Conf)
    ensures Open(conf, FreshDisk).Success?
    ensures var m := Open(conf, FreshDisk).value;
            && Inv(m) && AllEntries(m.files) == []
            && m.cp == NoCheckpoint && m.info == EmptyInfo
  {
    var m := Open(conf, FreshDisk).value;
    assert m.files == [[]];
    assert ScanFile([], 0, 0).entries == [];
    AllEntriesSnoc([], []);
  }

  // ---------------------------------------------------------------------
  // The entries of a sequence of blockfiles

  /** Unfolds `AllEntries` by one file added at the end. */
  lemma AllEntriesSnoc(init: seq<seq<byte>>, f: seq<byte>)
    ensures AllEntries(init + [f]) == AllEntries(init) + ScanFile(f, |init|, 0).entries
  {
    assert (init + [f])[..|init|] == init;
  }

  /** Unfolds `AllEntries` at its last file. */
  lemma AllEntriesInit(files: seq<seq<byte>>)
    requires files != []
    ensures var n := |files| - 1;
            AllEntries(files) == AllEntries(files[..n]) + ScanFile(files[n], n, 0).entries
  {
  }

  /** Appending no entries leaves an entry list unchanged. */
  lemma NoEntries(a: seq<Entry>)
    ensures a + [] == a
  {
  }

  // ---------------------------------------------------------------------
  // Rolling

  /** Rolling to a new blockfile keeps the invariant and the entries. */
  lemma MoveKeepsInv(m: Mgr)
    requires Inv(m)
    ensures Inv(MoveToNextFile(m)) && AllEntries(MoveToNextFile(m).files) == AllEntries(m.files)
  {
    var r := MoveToNextFile(m);
    assert r.files == m.files + [[]];
    assert ScanFile([], |m.files|, 0) == ScanResult([], 0);
    AllEntriesSnoc(m.files, []);
    NoEntries(AllEntries(m.files));
    assert AllClean(r.files) by {
      forall i | 0 <= i < |r.files| ensures Clean(r.files[i], i) {
        if i < |m.files| {
          assert r.files[i] == m.files[i];
        }
      }
    }
  }

  // ---------------------------------------------------------------------
  // Appending a record

  /** The state an append starts from: rolled or not. */
  function Rolled(m: Mgr, n: nat): (r: Mgr)
    requires Wf(m)
    ensures Wf(r)
  {
    if ShouldRoll(m, n) then MoveToNextFile(m) else m
  }

  /** The entry that appending the record of `p` (block `b`, envelope
      offsets `offs`) adds. */
  function NewEntry(m: Mgr, p: seq<byte>, b: Block, offs: seq<TxOffset>): (e: Entry)
    requires Wf(m) && Fits(p)
    ensures e.block == b
  {
    var m1 := Rolled(m, |Field(p)|);
    EntryOf(m1.cp.fileSuffix, m1.cp.fileSize, RecordInfo(b, offs, |EncodeVarint(|p|)|, m1.cp.fileSize + |Field(p)|))
  }

  /** Exposes what `AppendRecord` writes after `Rolled`: the files, the index, the checkpoint and the info. */
  lemma AppendRecordParts(m: Mgr, p: seq<byte>, b: Block, offs: seq<TxOffset>)
    requires Wf(m) && Fits(p)
    ensures var m1 := Rolled(m, |Field(p)|);
            var i := m1.cp.fileSuffix;
            var r := AppendRecord(m, p, b, offs);
            && r.files == m1.files[..i] + [m1.files[i] + Field(p)]
            && r.index == Record(m1.index, NewEntry(m, p, b, offs))
            && r.cp == Checkpoint(i, m1.cp.fileSize + |Field(p)|, b.number)
            && r.saved == r.cp && r.info == BlockchainInfo(b.number, b.hash, b.previousHash)
            && r.conf == m.conf
  {
    var m1 := Rolled(m, |Field(p)|);
    var i := m1.cp.fileSuffix;
    assert m1.files[i := m1.files[i] + Field(p)] == m1.files[..i] + [m1.files[i] + Field(p)];
  }

  /** Appending the record of a payload that decodes as block `b` keeps
      the invariant and adds exactly the entry of `b`. */
  lemma AppendKeepsInv(m: Mgr, p: seq<byte>, b: Block, offs: seq<TxOffset>)
    requires Inv(m) && Fits(p) && b.number >= 1
    requires Deserialize(p).Some? && Deserialize(p).value.0 == b && Deserialize(p).value.1 == offs
    ensures Inv(AppendRecord(m, p, b, offs))
    ensures AllEntries(AppendRecord(m, p, b, offs).files) == AllEntries(m.files) + [NewEntry(m, p, b, offs)]
  {
    hide *;
    InvWf(m);
    var m1 := Rolled(m, |Field(p)|);
    var r, e := AppendRecord(m, p, b, offs), NewEntry(m, p, b, offs);
    RolledKeepsInv(m, |Field(p)|);
    InvWf(m1);
    NewEntryIs(m, p, b, offs);
    AppendRecordParts(m, p, b, offs);
    AppendedEntries(m1.files, p, b, offs, m1.files[m1.cp.fileSuffix] + Field(p), e);
    AppendToInv(m1, r, p, b, e);
  }

  /** Exposes the parts of `Inv` that most proofs use: well-formedness, a non-empty file list, the active file size, and clean files. */
  lemma InvWf(m: Mgr)
    requires Inv(m)
    ensures Wf(m) && m.files != [] && |m.files[m.cp.fileSuffix]| == m.cp.fileSize && AllClean(m.files)
  {
  }

  /** Exposes `NewEntry` as the `EntryOf` the scan of the appended record produces. */
  lemma NewEntryIs(m: Mgr, p: seq<byte>, b: Block, offs: seq<TxOffset>)
    requires Wf(m) && Fits(p)
    ensures var m1 := Rolled(m, |Field(p)|);
            NewEntry(m, p, b, offs)
            == EntryOf(m1.cp.fileSuffix, m1.cp.fileSize, RecordInfo(b, offs, |EncodeVarint(|p|)|, m1.cp.fileSize + |Field(p)|))
  {
  }

  /** `Rolled` keeps `Inv` and does not change the scanned entries. */
  lemma RolledKeepsInv(m: Mgr, n: nat)
    requires Inv(m)
    ensures Inv(Rolled(m, n)) && AllEntries(Rolled(m, n).files) == AllEntries(m.files)
  {
    if ShouldRoll(m, n) {
      MoveKeepsInv(m);
    }
  }

  /** The blockfiles with a record appended to the last one: their entries
      gain exactly the entry of that record, and they stay clean. */
  lemma AppendedEntries(files: seq<seq<byte>>, p: seq<byte>, b: Block, offs: seq<TxOffset>, g: seq<byte>, e: Entry)
    requires files != [] && AllClean(files) && Fits(p)
    requires Deserialize(p).Some? && Deserialize(p).value.0 == b && Deserialize(p).value.1 == offs
    requires var f := files[|files| - 1];
             g == f + Field(p) && e == EntryOf(|files| - 1, |f|, RecordInfo(b, offs, |EncodeVarint(|p|)|, |f| + |Field(p)|))
    ensures AllEntries(files[..|files| - 1] + [g]) == AllEntries(files) + [e]
    ensures AllClean(files[..|files| - 1] + [g])
  {
    hide *;
    CleanAt(files, |files| - 1);
    AppendScan(files[|files| - 1], |files| - 1, p, b, offs, e);
    SnocEntries(files, g, e);
    SnocClean(files, g);
  }

  /** Scanning a clean file with one record appended gives the old entries and then the new one. */
  lemma AppendScan(f: seq<byte>, i: nat, p: seq<byte>, b: Block, offs: seq<TxOffset>, e: Entry)
    requires Clean(f, i) && Fits(p)
    requires Deserialize(p).Some? && Deserialize(p).value.0 == b && Deserialize(p).value.1 == offs
    requires e == EntryOf(i, |f|, RecordInfo(b, offs, |EncodeVarint(|p|)|, |f| + |Field(p)|))
    ensures ScanFile(f + Field(p), i, 0).entries == ScanFile(f, i, 0).entries + [e]
    ensures Clean(f + Field(p), i)
  {
    hide *;
    ScanAppend(f, i, p, b, offs);
    CleanOf(f + Field(p), i);
  }

  /** Exposes `AllClean` at one file. */
  lemma CleanAt(files: seq<seq<byte>>, i: nat)
    requires AllClean(files) && i < |files|
    ensures Clean(files[i], i)
  {
  }

  /** Exposes `Clean`: a scan that reaches the end of the file. */
  lemma CleanOf(f: seq<byte>, i: nat)
    requires ScanFile(f, i, 0).end == |f|
    ensures Clean(f, i)
  {
  }

  /** Replacing the last blockfile by one whose scan finds one entry
      more. */
  lemma SnocEntries(files: seq<seq<byte>>, g: seq<byte>, e: Entry)
    requires files != []
    requires ScanFile(g, |files| - 1, 0).entries == ScanFile(files[|files| - 1], |files| - 1, 0).entries + [e]
    ensures AllEntries(files[..|files| - 1] + [g]) == AllEntries(files) + [e]
  {
    var n := |files| - 1;
    hide ScanFile, AllEntries;
    AllEntriesSnoc(files[..n], g);
    AllEntriesInit(files);
    SeqAssoc(AllEntries(files[..n]), ScanFile(files[n], n, 0).entries, [e]);
  }

  /** Replacing the last blockfile by a clean one keeps all clean. */
  lemma SnocClean(files: seq<seq<byte>>, g: seq<byte>)
    requires files != [] && AllClean(files) && Clean(g, |files| - 1)
    ensures AllClean(files[..|files| - 1] + [g])
  {
    hide ScanFile;
    var n := |files| - 1;
    var files' := files[..n] + [g];
    forall j | 0 <= j < |files'| ensures Clean(files'[j], j) {
      if j < n {
        assert files'[j] == files[j];
      }
    }
  }

  /** The invariant after an append that did not roll, given the entries
      the blockfiles hold afterwards. */
  lemma AppendToInv(m1: Mgr, r: Mgr, p: seq<byte>, b: Block, e: Entry)
    requires Inv(m1) && Fits(p) && b.number >= 1 && e.block == b
    requires var i := m1.cp.fileSuffix;
             && r.files == m1.files[..i] + [m1.files[i] + Field(p)]
             && r.index == Record(m1.index, e)
             && r.cp == Checkpoint(i, m1.cp.fileSize + |Field(p)|, b.number)
             && r.saved == r.cp && r.info == BlockchainInfo(b.number, b.hash, b.previousHash)
    requires AllEntries(r.files) == AllEntries(m1.files) + [e] && AllClean(r.files)
    ensures Inv(r)
  {
    var es := AllEntries(m1.files);
    hide ScanFile, AllEntries, Fold, Record;
    FoldSnoc(EmptyIndex, es, e);
    assert Numbered(es + [e]) by {
      assert forall j :: 0 <= j < |es| ==> (es + [e])[j] == es[j];
    }
    assert LastEntry(es + [e]) == e;
  }

  // ---------------------------------------------------------------------
  // Adding blocks

  /** Adding a block the serializer accepts, numbered from 1 on, keeps
      the invariant and adds exactly an entry for that block. */
  lemma AddBlockKeepsInv(m: Mgr, b: Block)
    requires Inv(m) && Storable(b) && b.number >= 1
    ensures AddBlock(m, b).Success?
    ensures var es, es' := AllEntries(m.files), AllEntries(AddBlock(m, b).value.files);
            && Inv(AddBlock(m, b).value)
            && |es'| == |es| + 1 && es'[..|es|] == es && es'[|es|].block == b
  {
    var sb := Serialize(b);
    SerializeRoundTrip(b);
    assert AddBlock(m, b).value == AppendRecord(m, sb.bytes, b, sb.txOffsets);
    AppendKeepsInv(m, sb.bytes, b, sb.txOffsets);
    var es := AllEntries(m.files);
    assert (es + [NewEntry(m, sb.bytes, b, sb.txOffsets)])[..|es|] == es;
  }

  /** Blocks numbered from 1 on. */
  predicate NumberedBlocks(bs: seq<Block>) {
    forall j :: 0 <= j < |bs| ==> bs[j].number >= 1
  }

  predicate AllStorable(bs: seq<Block>) {
    forall j :: 0 <= j < |bs| ==> Storable(bs[j])
  }

  /** Adding blocks the serializer accepts keeps the invariant; the
      blockfiles then hold the old blocks followed by the new ones, and the
      old entries are untouched. */
  lemma {:induction false} AddBlocksKeepsInv(m: Mgr, bs: seq<Block>)
    requires Inv(m) && AllStorable(bs) && NumberedBlocks(bs)
    ensures AddBlocks(m, bs).Success?
    ensures var es, es' := AllEntries(m.files), AllEntries(AddBlocks(m, bs).value.files);
            && Inv(AddBlocks(m, bs).value)
            && |es| <= |es'| && es'[..|es|] == es
            && Blocks(es') == Blocks(es) + bs
    decreases |bs|
  {
    hide AddBlocks, AddBlock, Serialize, AllEntries, Inv, ScanFile, Blocks;
    InvWf(m);
    var es := AllEntries(m.files);
    if bs == [] {
      AddBlocksNil(m);
      assert Blocks(es) + [] == Blocks(es);
    } else {
      AddBlockKeepsInv(m, bs[0]);
      var m1 := AddBlock(m, bs[0]).value;
      InvWf(m1);
      var es1 := AllEntries(m1.files);
      assert AllStorable(bs[1..]) && NumberedBlocks(bs[1..]) by {
        assert forall j :: 0 <= j < |bs| - 1 ==> bs[1..][j] == bs[j + 1];
      }
      AddBlocksKeepsInv(m1, bs[1..]);
      AddBlocksCons(m, bs);
      var es' := AllEntries(AddBlocks(m, bs).value.files);
      PrefixOfPrefix(es, es1, es');
      BlocksSnoc(es, es1);
      assert Blocks(es) + [bs[0]] + bs[1..] == Blocks(es) + bs;
    }
  }

  /** Unfolds `AddBlocks` on no blocks. */
  lemma AddBlocksNil(m: Mgr)
    requires Wf(m)
    ensures AddBlocks(m, []) == Success(m)
  {
  }

  /** Unfolds `AddBlocks` by one block added successfully. */
  lemma AddBlocksCons(m: Mgr, bs: seq<Block>)
    requires Wf(m) && bs != [] && AddBlock(m, bs[0]).Success?
    ensures AddBlocks(m, bs) == AddBlocks(AddBlock(m, bs[0]).value, bs[1..])
  {
  }

  /** Being a prefix is transitive. */
  lemma PrefixOfPrefix(a: seq<Entry>, b: seq<Entry>, c: seq<Entry>)
    requires |a| <= |b| <= |c| && b[..|a|] == a && c[..|b|] == b
    ensures c[..|a|] == a
  {
    assert c[..|b|][..|a|] == c[..|a|];
  }

  /** The blocks of a run grown by one entry. */
  lemma BlocksSnoc(es: seq<Entry>, es1: seq<Entry>)
    requires |es1| == |es| + 1 && es1[..|es|] == es
    ensures Blocks(es1) == Blocks(es) + [es1[|es|].block]
  {
  }
}

=== FILE: mgr_lookup.dfy ===
/** What the lookups answer on an open manager: the block with a given
    number or hash, and the envelope of the transaction with a given id,
    each time the one recorded last, measured against reference answers
    read off the blocks the blockfiles hold. */
module MgrLookup {
  import opened Types
  import opened BlockCodec
  import opened BlockFile
  import opened BlockIndex
  import opened BlockfileMgr
  import opened MgrInvariant

  // ---------------------------------------------------------------------
  // Every recovered entry tells the truth about the blockfiles

  /** Entry `e` tells the truth about the blockfile its location names. */
  predicate SoundIn(files: seq<seq<byte>>, e: Entry) {
    e.loc.fileSuffix < |files| && EntrySound(files[e.loc.fileSuffix], e.loc.fileSuffix, e)
  }

  /** Every entry tells the truth about the blockfiles. */
  predicate AllSound(files: seq<seq<byte>>, es: seq<Entry>) {
    forall e <- es :: SoundIn(files, e)
  }

  /** The entries scanned from the blockfiles tell the truth about them. */
  lemma {:induction false} AllEntriesSound(files: seq<seq<byte>>)
    ensures AllSound(files, AllEntries(files))
    decreases |files|
  {
    if files != [] {
      var n := |files| - 1;
      AllEntriesSound(files[..n]);
      ScanSound(files[n], n, 0);
      forall e <- AllEntries(files) ensures SoundIn(files, e) {
        if e in AllEntries(files[..n]) {
          assert SoundIn(files[..n], e);
          assert files[..n][e.loc.fileSuffix] == files[e.loc.fileSuffix];
        } else {
          assert e in ScanFile(files[n], n, 0).entries;
        }
      }
    }
  }

  /** A truthful entry's location reads back its block. */
  lemma ReadSound(files: seq<seq<byte>>, e: Entry)
    requires SoundIn(files, e)
    ensures ReadBlock(files, e.loc).Success? && ReadBlock(files, e.loc).value == e.block
  {
  }

  // ---------------------------------------------------------------------
  // Blocks by number and by hash

  /** retrieveBlockByNumber answers with the block of that number recorded
      last, and NotFound when no block has that number. */
  lemma ByNumberFinds(m: Mgr, n: uint64)
    requires Inv(m)
    ensures var e := LastNumbered(AllEntries(m.files), n);
            && (e.None? ==> ByNumber(m, n) == Failure(NotFound))
            && (e.Some? ==> ByNumber(m, n).Success? && ByNumber(m, n).value == e.value.block)
  {
    var es := AllEntries(m.files);
    FoldLookups(es, n, [], []);
    AllEntriesSound(m.files);
    var e := LastNumbered(es, n);
    if e.Some? {
      ReadSound(m.files, e.value);
    }
  }

  /** retrieveBlockByHash answers with the block of that hash recorded
      last, and NotFound when no block has that hash. */
  lemma ByHashFinds(m: Mgr, h: seq<byte>)
    requires Inv(m)
    ensures var e := LastHashed(AllEntries(m.files), h);
            && (e.None? ==> ByHash(m, h) == Failure(NotFound))
            && (e.Some? ==> ByHash(m, h).Success? && ByHash(m, h).value == e.value.block)
  {
    var es := AllEntries(m.files);
    FoldLookups(es, 0, h, []);
    AllEntriesSound(m.files);
    var e := LastHashed(es, h);
    if e.Some? {
      ReadSound(m.files, e.value);
    }
  }

  // ---------------------------------------------------------------------
  // Transactions by id

  /** The last transaction of a list with id `id`. */
  function LastTxIn(txs: seq<Tx>, id: seq<byte>): (r: Option<Tx>)
    ensures r.Some? ==> r.value in txs && r.value.id == id
    ensures r.None? <==> forall t :: 0 <= t < |txs| ==> txs[t].id != id
    decreases |txs|
  {
    if txs == [] then None
    else if txs[|txs| - 1].id == id then Some(txs[|txs| - 1])
    else LastTxIn(txs[..|txs| - 1], id)
  }

  /** The last transaction with id `id` in the blocks of a run of
      entries: the one in the latest block, and within it the latest. */
  function LastTx(es: seq<Entry>, id: seq<byte>): (r: Option<Tx>)
    ensures r.Some? ==> r.value.id == id && exists j :: 0 <= j < |es| && r.value in es[j].block.txs
    ensures r.None? <==> forall j, t :: 0 <= j < |es| && 0 <= t < |es[j].block.txs| ==> es[j].block.txs[t].id != id
    decreases |es|
  {
    if es == [] then None
    else
      var k := |es| - 1;
      var r := Or(LastTxIn(es[k].block.txs, id), LastTx(es[..k], id));
      assert forall j :: 0 <= j < k ==> es[..k][j] == es[j];
      r
  }

  /** A transaction-index answer and a reference answer agree: both
      absent, or the location holds the transaction's envelope. */
  predicate Serves(files: seq<seq<byte>>, loc: Option<Location>, tx: Option<Tx>) {
    if loc.None? then tx.None? else tx.Some? && ReadRaw(files, loc.value) == Success(tx.value.envelope)
  }

  /** `Serves` is kept by choosing the first answer that exists. */
  lemma ServesOr(files: seq<seq<byte>>, a: Option<Location>, b: Option<Location>, s: Option<Tx>, t: Option<Tx>)
    requires Serves(files, a, s) && Serves(files, b, t)
    ensures Serves(files, Or(a, b), Or(s, t))
  {
  }

  /** The writes one block's transaction locations make answer an id as the
      block's transactions do, provided each location holds its envelope. */
  lemma {:induction false} TxLocWritesServe(files: seq<seq<byte>>, ts: seq<TxLoc>, txs: seq<Tx>, id: seq<byte>)
    requires |ts| == |txs|
    requires forall j :: 0 <= j < |ts| ==> ts[j].txId == txs[j].id && ReadRaw(files, ts[j].loc) == Success(txs[j].envelope)
    ensures Serves(files, LastWrite(TxLocWrites(ts), id), LastTxIn(txs, id))
    decreases |ts|
  {
    if ts != [] {
      var k := |ts| - 1;
      assert TxLocWrites(ts)[..k] == TxLocWrites(ts[..k]);
      TxLocWritesServe(files, ts[..k], txs[..k], id);
    }
  }

  /** A truthful entry's transaction locations hold its envelopes. */
  lemma EntryTxsServe(files: seq<seq<byte>>, e: Entry)
    requires SoundIn(files, e)
    ensures |e.txLocs| == |e.block.txs|
    ensures forall j :: 0 <= j < |e.txLocs| ==>
              e.txLocs[j].txId == e.block.txs[j].id && ReadRaw(files, e.txLocs[j].loc) == Success(e.block.txs[j].envelope)
  {
    var i := e.loc.fileSuffix;
    forall j | 0 <= j < |e.txLocs|
      ensures e.txLocs[j].txId == e.block.txs[j].id && ReadRaw(files, e.txLocs[j].loc) == Success(e.block.txs[j].envelope)
    {
      assert TxLocSound(files[i], i, e.txLocs[j], e.block.txs[j]);
    }
  }

  /** The transaction index built from truthful entries answers an id
      with the location of the envelope of the last transaction with that
      id. */
  lemma {:induction false} TxWritesServe(files: seq<seq<byte>>, es: seq<Entry>, id: seq<byte>)
    requires AllSound(files, es)
    ensures Serves(files, LastWrite(TxWrites(es), id), LastTx(es, id))
    decreases |es|
  {
    if es != [] {
      var k := |es| - 1;
      assert AllSound(files, es[..k]) by {
        forall e <- es[..k] ensures SoundIn(files, e) {
          assert e in es;
        }
      }
      TxWritesServe(files, es[..k], id);
      assert es[k] in es;
      EntryTxsServe(files, es[k]);
      TxLocWritesServe(files, es[k].txLocs, es[k].block.txs, id);
      LastWriteAppend(TxWrites(es[..k]), TxLocWrites(es[k].txLocs), id);
      ServesOr(files, LastWrite(TxLocWrites(es[k].txLocs), id), LastWrite(TxWrites(es[..k]), id),
               LastTxIn(es[k].block.txs, id), LastTx(es[..k], id));
    }
  }

  /** retrieveTransactionByID answers with the envelope of the
      transaction of that id recorded last, and NotFound when no block holds
      a transaction of that id. */
  lemma TxByIdFinds(m: Mgr, id: seq<byte>)
    requires Inv(m)
    ensures var t := LastTx(AllEntries(m.files), id);
            && (t.None? ==> TxById(m, id) == Failure(NotFound))
            && (t.Some? ==> TxById(m, id) == Success(t.value.envelope))
  {
    var es := AllEntries(m.files);
    FoldLookups(es, 0, [], id);
    AllEntriesSound(m.files);
    TxWritesServe(m.files, es, id);
  }
}

=== FILE: mgr_recovery.dfy ===
/** Restart and crash recovery. Closing an open manager and opening it
    again gives the same manager back. So does a crash that leaves behind,
    at the end of the active file, bytes that hold no whole record, with a
    persisted checkpoint older than the one in memory: the recovery scan
    finds every block the active file holds and drops the tail. */
module MgrRecovery {
  import opened Types
  import opened Fields
  import opened BlockCodec
  import opened BlockFile
  import opened BlockIndex
  import opened BlockfileMgr
  import opened MgrInvariant
  import opened MgrLookup

  /** The blockchain info read back through the index is the info kept:
      what a restart reports is what was reported before it. */
  lemma InfoRecovered(m: Mgr)
    requires Inv(m)
    ensures InfoFromIndex(m.files, m.index, m.cp.lastBlockNumber) == Success(m.info)
  {
    var es := AllEntries(m.files);
    if es != [] {
      var last := LastEntry(es).block.number;
      assert LastNumbered(es, last) == Some(LastEntry(es));
      ByNumberFinds(m, last);
      assert Lookup(m.index.byNumber, last) == Some(LastEntry(es).loc) by {
        FoldLookups(es, last, [], []);
      }
    } else {
      assert m.cp.lastBlockNumber == 0;
    }
  }

  /** Bytes that hold no whole record where they start. */
  predicate Unreadable(f: seq<byte>, tail: seq<byte>, i: nat) {
    ScanFile(f + tail, i, |f|) == ScanResult([], |f|)
  }

  /** A clean blockfile followed by an unreadable tail scans as the clean
      file alone and is cut back to it. */
  lemma ScanWithTail(f: seq<byte>, tail: seq<byte>, i: nat)
    requires Clean(f, i) && Unreadable(f, tail, i)
    ensures ScanFile(f + tail, i, 0) == ScanFile(f, i, 0)
    ensures Cut(f + tail, i) == f
  {
    ScanExtend(f, tail, i, 0);
    assert ScanFile(f, i, 0).entries + [] == ScanFile(f, i, 0).entries;
    assert (f + tail)[..|f|] == f;
  }

  /** The entries of the blockfiles end with those of the active file. */
  lemma ActiveEntries(m: Mgr)
    requires Wf(m)
    ensures var i := m.cp.fileSuffix;
            AllEntries(m.files) == AllEntries(m.files[..i]) + ScanFile(Active(m), i, 0).entries
  {
    AllEntriesInit(m.files);
  }

  /** The last entry of a concatenation with a non-empty second operand is that operand's last entry. */
  lemma LastOfAppend(a: seq<Entry>, b: seq<Entry>)
    requires b != []
    ensures LastEntry(a + b) == LastEntry(b)
  {
  }

  /** The central recovery fact: with the active file followed by an
      unreadable tail and a persisted checkpoint that names the active file
      (and the right last block number, when the active file holds no
      whole record), opening recovers the manager exactly. */
  lemma RecoverAfter(m: Mgr, tail: seq<byte>, c: Checkpoint)
    requires Inv(m) && c.fileSuffix == m.cp.fileSuffix
    requires Unreadable(Active(m), tail, m.cp.fileSuffix)
    requires ScanFile(Active(m), m.cp.fileSuffix, 0).entries != [] || c.lastBlockNumber == m.cp.lastBlockNumber
    ensures Open(m.conf, Disk(m.files[m.cp.fileSuffix := Active(m) + tail], Some(c), m.index)) == Success(m)
  {
    hide ScanFile, AllEntries, Fold, InfoFromIndex, Inv, Cut, ReadBlock, Lookup;
    InvWf(m);
    var i, f := m.cp.fileSuffix, Active(m);
    var d := Disk(m.files[i := f + tail], Some(c), m.index);
    var es, s := AllEntries(m.files), ScanFile(f, i, 0).entries;
    InvParts(m);
    CleanAt(m.files, i);
    ScanWithTail(f, tail, i);
    assert d.files[i := Cut(d.files[i], i)] == m.files;
    ActiveEntries(m);
    var last := if s == [] then c.lastBlockNumber else LastEntry(s).block.number;
    if s != [] {
      LastOfAppend(AllEntries(m.files[..i]), s);
    }
    assert last == m.cp.lastBlockNumber;
    FoldAgain(EmptyIndex, AllEntries(m.files[..i]), s);
    assert Fold(m.index, s) == m.index;
    InfoRecovered(m);
    assert Open(m.conf, d) == Recover(m.conf, d, c);
    RecoverIs(m.conf, d, c, m.cp, m.index, m.files);
    assert Mgr(m.conf, m.files, m.cp, m.cp, m.index, m.info) == m;
  }

  /** The facts of the invariant RecoverAfter uses. */
  lemma InvParts(m: Mgr)
    requires Inv(m)
    ensures m.index == Fold(EmptyIndex, AllEntries(m.files)) && m.saved == m.cp
    ensures m.cp.lastBlockNumber == LastNumber(AllEntries(m.files))
  {
  }

  /** Recover, given the scan, the cut files, the checkpoint and index it
      computes. */
  lemma RecoverIs(conf: Conf, d: Disk, c: Checkpoint, cp: Checkpoint, ix: Index, files: seq<seq<byte>>)
    requires c.fileSuffix + 1 == |d.files|
    requires var i := c.fileSuffix;
             var s := ScanFile(d.files[i], i, 0);
             && files == d.files[i := Cut(d.files[i], i)]
             && cp == Checkpoint(i, s.end, if s.entries == [] then c.lastBlockNumber else LastEntry(s.entries).block.number)
             && ix == Fold(d.index, s.entries)
    ensures Recover(conf, d, c) == WithInfo(Mgr(conf, files, cp, cp, ix, EmptyInfo))
  {
  }

  // ---------------------------------------------------------------------
  // Restart and crash

  /** Restart: closing and opening again gives the same manager. */
  lemma Reopen(m: Mgr)
    requires Inv(m)
    ensures Open(m.conf, Close(m)) == Success(m)
  {
    InvWf(m);
    var i, f := m.cp.fileSuffix, Active(m);
    ScanStops(f + [], i, |f|);
    assert f + [] == f;
    assert m.files[i := f + []] == m.files;
    RecoverAfter(m, [], m.cp);
  }

  /** The state a crash leaves: raw bytes at the end of the active file
      and an older checkpoint persisted, then the process gone. */
  function Crashed(m: Mgr, tail: seq<byte>, c: Checkpoint): (d: Disk)
    requires Wf(m)
  {
    Close(SaveCurrentInfo(RawAppend(m, tail), c))
  }

  /** A crash in the middle of writing a record: a strict prefix of the
      record's bytes, its length prefix included, reached the active
      file, and the persisted checkpoint is an older one of the same file.
      Opening recovers the manager as it was before the torn write. */
  lemma RecoverTornWrite(m: Mgr, q: seq<byte>, k: nat, c: Checkpoint)
    requires Inv(m) && Fits(q) && k < |Field(q)|
    requires c.fileSuffix == m.cp.fileSuffix
    requires ScanFile(Active(m), m.cp.fileSuffix, 0).entries != [] || c.lastBlockNumber == m.cp.lastBlockNumber
    ensures Open(m.conf, Crashed(m, Field(q)[..k], c)) == Success(m)
  {
    InvWf(m);
    ScanTornTail(Active(m), m.cp.fileSuffix, q, k);
    RecoverAfter(m, Field(q)[..k], c);
  }

  /** A whole record whose payload is not a block reached the active
      file: the same recovery. */
  lemma RecoverMalformedRecord(m: Mgr, q: seq<byte>, c: Checkpoint)
    requires Inv(m) && Fits(q) && Deserialize(q).None?
    requires c.fileSuffix == m.cp.fileSuffix
    requires ScanFile(Active(m), m.cp.fileSuffix, 0).entries != [] || c.lastBlockNumber == m.cp.lastBlockNumber
    ensures Open(m.conf, Crashed(m, Field(q), c)) == Success(m)
  {
    InvWf(m);
    ScanMalformedTail(Active(m), m.cp.fileSuffix, q);
    RecoverAfter(m, Field(q), c);
  }
}

=== FILE: mgr_rolling.dfy ===
/** Where records land under a size limit. A record goes to the active
    blockfile unless the limit is set and the record would push the file
    past it; then a new blockfile starts with that record. Placement
    depends only on the record sizes, so it is computed here on sizes alone
    and shown to be what adding blocks does to the checkpoint. */
module MgrRolling {
  import opened Types
  import opened Varint
  import opened Fields
  import opened BlockCodec
  import opened BlockfileMgr
  import opened MgrInvariant

  /** The (active suffix, active size) after placing records of sizes `rs`
      from (`suffix`, `size`) under limit `max` (0 for none). */
  function Place(max: nat, suffix: nat, size: nat, rs: seq<nat>): (r: (nat, nat))
    ensures suffix <= r.0 <= suffix + |rs|
    ensures max == 0 ==> r == (suffix, size + Sum(rs))
    decreases |rs|
  {
    if rs == [] then (suffix, size)
    else if max > 0 && size + rs[0] > max then Place(max, suffix + 1, rs[0], rs[1..])
    else Place(max, suffix, size + rs[0], rs[1..])
  }

  /** The total of a list of sizes. */
  function Sum(rs: seq<nat>): (total: nat) {
    if rs == [] then 0 else rs[0] + Sum(rs[1..])
  }

  /** Every size is at most `bound`. */
  predicate AtMost(rs: seq<nat>, bound: nat) {
    forall j :: 0 <= j < |rs| ==> rs[j] <= bound
  }

  /** Records that fit in what is left of the active file stay in it. */
  lemma {:induction false} NoRoll(max: nat, suffix: nat, size: nat, rs: seq<nat>)
    requires size + Sum(rs) <= max
    ensures Place(max, suffix, size, rs) == (suffix, size + Sum(rs))
    decreases |rs|
  {
    if rs != [] {
      NoRoll(max, suffix, size + rs[0], rs[1..]);
    }
  }

  /** Records of at most `bound` bytes that overflow the active file, but by
      less than one file minus `bound`, make exactly one roll, and the new
      active file ends up holding less than the overflow plus `bound`. */
  lemma {:induction false} OneRoll(max: nat, suffix: nat, size: nat, rs: seq<nat>, bound: nat)
    requires max > 0 && AtMost(rs, bound)
    requires size <= max < size + Sum(rs)
    requires size + Sum(rs) + bound <= 2 * max
    ensures Place(max, suffix, size, rs).0 == suffix + 1
    ensures Place(max, suffix, size, rs).1 + max < size + Sum(rs) + bound
    decreases |rs|
  {
    assert rs != [];
    assert rs[0] <= bound;
    assert AtMost(rs[1..], bound) by {
      forall j | 0 <= j < |rs| - 1 ensures rs[1..][j] <= bound {
        assert rs[1..][j] == rs[j + 1];
      }
    }
    if size + rs[0] > max {
      NoRoll(max, suffix + 1, rs[0], rs[1..]);
    } else {
      OneRoll(max, suffix, size + rs[0], rs[1..], bound);
    }
  }

  /** The file-rolling scenario in numbers: with the limit at three
      quarters of the total size of a run of records, rounded down, and no
      record above a twentieth of that total, writing the run into an empty
      ledger rolls once, and writing it a second time rolls once more. */
  lemma RollsTwice(max: nat, rs: seq<nat>, bound: nat)
    requires bound >= 1 && AtMost(rs, bound) && 20 * bound <= Sum(rs)
    requires 4 * max <= 3 * Sum(rs) < 4 * max + 4
    ensures Place(max, 0, 0, rs).0 == 1
    ensures Place(max, 1, Place(max, 0, 0, rs).1, rs).0 == 2
  {
    OneRoll(max, 0, 0, rs, bound);
    var size := Place(max, 0, 0, rs).1;
    OneRoll(max, 1, size, rs, bound);
  }

  // ---------------------------------------------------------------------
  // Adding blocks places their records

  /** The size of the record a block is stored as: the serialized block
      plus its varint length prefix of one to ten bytes. */
  function RecordSize(b: Block): (n: nat)
    requires Storable(b)
    ensures var p := Serialize(b).bytes;
            n == |p| + |EncodeVarint(|p|)| && |p| < n <= |p| + 10
  {
    EncodeVarintLength(|Serialize(b).bytes|);
    |Field(Serialize(b).bytes)|
  }

  /** The on-disk record size of every block, in order. */
  function RecordSizes(bs: seq<Block>): (rs: seq<nat>)
    requires AllStorable(bs)
    ensures |rs| == |bs| && forall j :: 0 <= j < |bs| ==> rs[j] == RecordSize(bs[j])
    decreases |bs|
  {
    if bs == [] then []
    else
      assert AllStorable(bs[1..]) by {
        assert forall j :: 0 <= j < |bs| - 1 ==> bs[1..][j] == bs[j + 1];
      }
      [RecordSize(bs[0])] + RecordSizes(bs[1..])
  }

  /** Adding blocks moves the checkpoint's suffix and size as placing
      their records does. */
  lemma {:induction false} AddBlocksPlace(m: Mgr, bs: seq<Block>)
    requires Wf(m) && AllStorable(bs)
    ensures AddBlocks(m, bs).Success?
    ensures var cp := AddBlocks(m, bs).value.cp;
            (cp.fileSuffix, cp.fileSize) == Place(m.conf.maxFileSize, m.cp.fileSuffix, m.cp.fileSize, RecordSizes(bs))
    decreases |bs|
  {
    hide *;
    if bs == [] {
      AddBlocksNil(m);
      PlaceNil(m.conf.maxFileSize, m.cp.fileSuffix, m.cp.fileSize);
    } else {
      AllStorableTail(bs);
      AddBlockPlaces(m, bs[0]);
      var m1 := AddBlock(m, bs[0]).value;
      AddBlocksPlace(m1, bs[1..]);
      AddBlocksCons(m, bs);
      RecordSizesCons(bs);
      PlaceCons(m.conf.maxFileSize, m.cp.fileSuffix, m.cp.fileSize, RecordSizes(bs));
    }
  }

  /** Adding one block places its record. */
  lemma AddBlockPlaces(m: Mgr, b: Block)
    requires Wf(m) && Storable(b)
    ensures AddBlock(m, b).Success?
    ensures var m1 := AddBlock(m, b).value;
            && Wf(m1) && m1.conf == m.conf
            && (m1.cp.fileSuffix, m1.cp.fileSize)
               == if m.conf.maxFileSize > 0 && m.cp.fileSize + RecordSize(b) > m.conf.maxFileSize
                  then (m.cp.fileSuffix + 1, RecordSize(b))
                  else (m.cp.fileSuffix, m.cp.fileSize + RecordSize(b))
  {
    var sb := Serialize(b);
    assert AddBlock(m, b).value == AppendRecord(m, sb.bytes, b, sb.txOffsets);
  }

  /** Unfolds `AllStorable` at its first block. */
  lemma AllStorableTail(bs: seq<Block>)
    requires bs != [] && AllStorable(bs)
    ensures Storable(bs[0]) && AllStorable(bs[1..])
  {
    assert forall j :: 0 <= j < |bs| - 1 ==> bs[1..][j] == bs[j + 1];
  }

  /** Unfolds `RecordSizes` at its first block. */
  lemma RecordSizesCons(bs: seq<Block>)
    requires bs != [] && AllStorable(bs)
    ensures AllStorable(bs[1..])
    ensures RecordSizes(bs)[0] == RecordSize(bs[0]) && RecordSizes(bs)[1..] == RecordSizes(bs[1..])
  {
    AllStorableTail(bs);
  }

  /** Unfolds `Place` on no records. */
  lemma PlaceNil(max: nat, suffix: nat, size: nat)
    ensures Place(max, suffix, size, []) == (suffix, size)
  {
  }

  /** Unfolds `Place` by one record: it rolls when the record does not fit under `max`. */
  lemma PlaceCons(max: nat, suffix: nat, size: nat, rs: seq<nat>)
    requires rs != []
    ensures Place(max, suffix, size, rs)
            == if max > 0 && size + rs[0] > max then Place(max, suffix + 1, rs[0], rs[1..])
               else Place(max, suffix, size + rs[0], rs[1..])
  {
  }
}

=== FILE: mgr_scenarios.dfy ===
/** The behaviours the block-file manager's tests exercise, stated for all
    inputs of the shape the tests use: blocks written into a fresh ledger
    are found by number, by hash and by transaction id; the iterator yields
    them in order; the blockchain info follows them; a restart changes
    nothing; a torn write is recovered from; the manager rolls to new
    blockfiles under a size limit. */
module MgrScenarios {
  import opened Types
  import opened Fields
  import opened BlockCodec
  import opened BlockFile
  import opened BlockIndex
  import opened BlockfileMgr
  import opened MgrInvariant
  import opened MgrLookup
  import opened MgrRecovery
  import opened MgrRolling

  // ---------------------------------------------------------------------
  // Ledgers built the way the tests build them

  /** The manager a fresh ledger opens as. */
  function Fresh(conf: Conf): (m: Mgr)
    ensures Inv(m) && AllEntries(m.files) == [] && m.conf == conf
    ensures m.cp == NoCheckpoint && GetBlockchainInfo(m) == EmptyInfo
  {
    OpenFresh(conf);
    Open(conf, FreshDisk).value
  }

  /** A fresh ledger after adding `bs`. */
  function Ledger(conf: Conf, bs: seq<Block>): (m: Mgr)
    requires AllStorable(bs) && NumberedBlocks(bs)
    ensures Inv(m) && Blocks(AllEntries(m.files)) == bs && m.conf == conf
  {
    hide *;
    InvWf(Fresh(conf));
    AddBlocksKeepsInv(Fresh(conf), bs);
    AddBlocks(Fresh(conf), bs).value
  }

  /** Blocks numbered 1, 2, 3, ... as the test generator makes them. */
  predicate Consecutive(bs: seq<Block>) {
    forall j :: 0 <= j < |bs| ==> bs[j].number == j + 1
  }

  /** No two of the blocks share a header hash. */
  predicate DistinctHashes(bs: seq<Block>) {
    forall j, k :: 0 <= j < |bs| && 0 <= k < |bs| && j != k ==> bs[j].hash != bs[k].hash
  }

  /** No two transactions of the blocks share an id. */
  predicate UniqueTxIds(bs: seq<Block>) {
    forall j1, t1, j2, t2 ::
      0 <= j1 < |bs| && 0 <= t1 < |bs[j1].txs| && 0 <= j2 < |bs| && 0 <= t2 < |bs[j2].txs|
      && bs[j1].txs[t1].id == bs[j2].txs[t2].id
      ==> j1 == j2 && t1 == t2
  }

  // ---------------------------------------------------------------------
  // Lookups of blocks no later block shadows

  /** A block no later block shares a number with is found by number. */
  lemma ByNumberAt(m: Mgr, k: nat)
    requires Inv(m) && k < |AllEntries(m.files)|
    requires var es := AllEntries(m.files);
             forall j :: k < j < |es| ==> es[j].block.number != es[k].block.number
    ensures var b := AllEntries(m.files)[k].block;
            ByNumber(m, b.number) == Success(b)
  {
    LastNumberedAt(AllEntries(m.files), k);
    ByNumberFinds(m, AllEntries(m.files)[k].block.number);
  }

  /** A block no later block shares a hash with is found by hash. */
  lemma ByHashAt(m: Mgr, k: nat)
    requires Inv(m) && k < |AllEntries(m.files)|
    requires var es := AllEntries(m.files);
             forall j :: k < j < |es| ==> es[j].block.hash != es[k].block.hash
    ensures var b := AllEntries(m.files)[k].block;
            ByHash(m, b.hash) == Success(b)
  {
    LastHashedAt(AllEntries(m.files), k);
    ByHashFinds(m, AllEntries(m.files)[k].block.hash);
  }

  /** With transaction ids unique, every transaction is found by its id. */
  lemma TxByIdAt(m: Mgr, j: nat, t: nat)
    requires Inv(m) && UniqueTxIds(Blocks(AllEntries(m.files)))
    requires j < |AllEntries(m.files)| && t < |AllEntries(m.files)[j].block.txs|
    ensures var tx := AllEntries(m.files)[j].block.txs[t];
            TxById(m, tx.id) == Success(tx.envelope)
  {
    var es := AllEntries(m.files);
    var bs := Blocks(es);
    var tx := es[j].block.txs[t];
    TxByIdFinds(m, tx.id);
    assert bs[j].txs[t] == tx;
    var x := LastTx(es, tx.id).value;
    var j' :| 0 <= j' < |es| && x in es[j'].block.txs;
    var t' :| 0 <= t' < |es[j'].block.txs| && es[j'].block.txs[t'] == x;
    assert bs[j'].txs[t'] == x;
  }

  /** The iterator over consecutively numbered blocks yields the blocks
      from `start` on, in order. */
  lemma {:induction false} BlocksFromConsecutive(m: Mgr, start: nat)
    requires Inv(m) && Consecutive(Blocks(AllEntries(m.files)))
    requires 1 <= start <= |AllEntries(m.files)| + 1
    ensures BlocksFrom(m, start) == Success(Blocks(AllEntries(m.files))[start - 1..])
    decreases |AllEntries(m.files)| + 1 - start
  {
    hide *;
    var es := AllEntries(m.files);
    var bs := Blocks(es);
    InvParts(m);
    ConsecutiveLast(es);
    if start <= |es| {
      ByNumberAt(m, start - 1);
      BlocksFromConsecutive(m, start + 1);
      BlocksFromStep(m, start, bs[start - 1]);
      assert bs[start - 1..] == [bs[start - 1]] + bs[start..];
    } else {
      BlocksFromEnd(m, start);
      assert bs[start - 1..] == [];
    }
  }

  /** Consecutively numbered entries: the entry at `j` has number `j + 1`,
      the last number is the count, and no two numbers are the same. */
  lemma ConsecutiveLast(es: seq<Entry>)
    requires Consecutive(Blocks(es))
    ensures LastNumber(es) as int == |es|
    ensures forall j :: 0 <= j < |es| ==> es[j].block.number as int == j + 1
  {
    assert forall j :: 0 <= j < |es| ==> Blocks(es)[j] == es[j].block;
    if es != [] {
      assert Blocks(es)[|es| - 1] == LastEntry(es).block;
    }
  }

  /** Unfolds `BlocksFrom` by one block that is found. */
  lemma BlocksFromStep(m: Mgr, start: nat, b: Block)
    requires start <= m.cp.lastBlockNumber && ByNumber(m, start as uint64) == Success(b)
    requires BlocksFrom(m, start + 1).Success?
    ensures BlocksFrom(m, start) == Success([b] + BlocksFrom(m, start + 1).value)
  {
  }

  /** Unfolds `BlocksFrom` past the last block. */
  lemma BlocksFromEnd(m: Mgr, start: nat)
    requires start > m.cp.lastBlockNumber
    ensures BlocksFrom(m, start) == Success([])
  {
  }

  /** Exposes the part of `Inv` that ties the blockchain info to the scanned entries. */
  lemma InvInfo(m: Mgr)
    requires Inv(m)
    ensures m.info == InfoOf(AllEntries(m.files))
  {
  }

  // ---------------------------------------------------------------------
  // The tests

  /** Blocks written are read back by hash and by number. */
  lemma ReadWrite(conf: Conf, bs: seq<Block>)
    requires AllStorable(bs) && Consecutive(bs) && DistinctHashes(bs)
    ensures forall k :: 0 <= k < |bs| ==> ByHash(Ledger(conf, bs), bs[k].hash) == Success(bs[k])
    ensures forall k :: 0 <= k < |bs| ==> ByNumber(Ledger(conf, bs), bs[k].number) == Success(bs[k])
  {
    hide Ledger, Inv, AllEntries, ByHash, ByNumber;
    var m := Ledger(conf, bs);
    var es := AllEntries(m.files);
    forall k | 0 <= k < |bs|
      ensures ByHash(m, bs[k].hash) == Success(bs[k]) && ByNumber(m, bs[k].number) == Success(bs[k])
    {
      assert forall j :: 0 <= j < |es| ==> es[j].block == bs[j];
      ByHashAt(m, k);
      ByNumberAt(m, k);
    }
  }

  /** The iterator started at any block number yields the blocks from that
      number on; started at 1 over ten blocks, its first eight are the first
      eight blocks. */
  lemma Iterate(conf: Conf, bs: seq<Block>)
    requires AllStorable(bs) && Consecutive(bs)
    ensures forall start :: 1 <= start <= |bs| + 1 ==> BlocksFrom(Ledger(conf, bs), start) == Success(bs[start - 1..])
  {
    hide Ledger, Inv, AllEntries, BlocksFrom;
    forall start | 1 <= start <= |bs| + 1
      ensures BlocksFrom(Ledger(conf, bs), start) == Success(bs[start - 1..])
    {
      BlocksFromConsecutive(Ledger(conf, bs), start);
    }
  }

  /** The blockchain info of an empty ledger has height 0 and no hashes;
      after consecutively numbered blocks its height is their count and its
      hashes are the last block's. */
  lemma Info(conf: Conf, bs: seq<Block>)
    requires AllStorable(bs) && Consecutive(bs) && bs != []
    ensures GetBlockchainInfo(Fresh(conf)) == BlockchainInfo(0, [], [])
    ensures var info := GetBlockchainInfo(Ledger(conf, bs));
            && info.height as int == |bs|
            && info.currentHash == bs[|bs| - 1].hash
            && info.previousHash == bs[|bs| - 1].previousHash
  {
    hide Ledger, Fresh, Inv, AllEntries;
    var m := Ledger(conf, bs);
    var es := AllEntries(m.files);
    InvInfo(m);
    assert LastEntry(es).block == bs[|bs| - 1];
  }

  /** Every transaction of the blocks written is found by its id. */
  lemma TxByIdAll(conf: Conf, bs: seq<Block>)
    requires AllStorable(bs) && NumberedBlocks(bs) && UniqueTxIds(bs)
    ensures forall j, t :: 0 <= j < |bs| && 0 <= t < |bs[j].txs| ==>
              TxById(Ledger(conf, bs), bs[j].txs[t].id) == Success(bs[j].txs[t].envelope)
  {
    hide Ledger, Inv, AllEntries, TxById;
    var m := Ledger(conf, bs);
    var es := AllEntries(m.files);
    forall j, t | 0 <= j < |bs| && 0 <= t < |bs[j].txs|
      ensures TxById(m, bs[j].txs[t].id) == Success(bs[j].txs[t].envelope)
    {
      assert es[j].block == bs[j];
      TxByIdAt(m, j, t);
    }
  }

  /** After a restart the manager reports the same last block number and
      finds the same blocks by hash. */
  lemma Restart(conf: Conf, bs: seq<Block>)
    requires AllStorable(bs) && Consecutive(bs) && DistinctHashes(bs)
    ensures Open(conf, Close(Ledger(conf, bs))) == Success(Ledger(conf, bs))
    ensures Ledger(conf, bs).cp.lastBlockNumber as int == |bs|
    ensures forall k :: 0 <= k < |bs| ==> ByHash(Open(conf, Close(Ledger(conf, bs))).value, bs[k].hash) == Success(bs[k])
  {
    hide Ledger, Inv, AllEntries, Open, ByHash;
    var m := Ledger(conf, bs);
    Reopen(m);
    ReadWrite(conf, bs);
    InvParts(m);
    if bs != [] {
      assert LastEntry(AllEntries(m.files)).block == bs[|bs| - 1];
    }
  }

  /** Crash during writing: blocks are added, the checkpoint of that moment
      is kept, more blocks are added, then part of a further record (its
      length prefix and some payload bytes, possibly none) reaches the
      active file and the kept checkpoint is persisted before the process
      dies. Opening again recovers the manager as it was after the last
      whole block, and blocks added after that are iterated together with
      all the earlier ones. The blockfile limit is 0, as in the test. */
  lemma CrashDuringWriting(before: seq<Block>, after: seq<Block>, more: seq<Block>, q: seq<byte>, k: nat)
    requires AllStorable(before) && AllStorable(after) && AllStorable(more)
    requires NumberedBlocks(before) && NumberedBlocks(after) && NumberedBlocks(more)
    requires Consecutive(before + after + more)
    requires Fits(q) && k < |Field(q)|
    ensures var m1 := Ledger(Conf(0), before);
            var m2 := AddBlocks(m1, after).value;
            && Open(Conf(0), Crashed(m2, Field(q)[..k], m1.cp)) == Success(m2)
            && m2.cp.lastBlockNumber as int == |before| + |after|
            && BlocksFrom(AddBlocks(m2, more).value, 1) == Success(before + after + more)
  {
    hide Ledger, Fresh, Inv, AllEntries, AddBlocks, Open, BlocksFrom, Crashed;
    var conf := Conf(0);
    var m0 := Fresh(conf);
    var m1 := Ledger(conf, before);
    InvWf(m0);
    InvWf(m1);
    LedgerIs(conf, before);
    AddBlocksPlace(m0, before);
    assert m1.cp.fileSuffix == 0;
    AddBlocksKeepsInv(m1, after);
    AddBlocksPlace(m1, after);
    var m2 := AddBlocks(m1, after).value;
    assert m2.cp.fileSuffix == 0;
    InvWf(m2);
    var es2 := AllEntries(m2.files);
    ConsecutivePrefix(before + after, more);
    InvParts(m2);
    ConsecutiveLast(es2);
    if after == [] {
      AddBlocksNil(m1);
    } else {
      ActiveEntries(m2);
      AllEntriesNil(m2.files[..0]);
      assert |es2| == |before| + |after|;
    }
    RecoverTornWrite(m2, q, k, m1.cp);
    AddBlocksKeepsInv(m2, more);
    var m4 := AddBlocks(m2, more).value;
    assert Blocks(AllEntries(m4.files)) == before + after + more;
    BlocksFromConsecutive(m4, 1);
  }

  /** Blockfile rolling: the limit is three quarters of the total size of
      the records of `bs`, rounded down, and no record exceeds a twentieth
      of that total. Adding `bs` to a fresh ledger leaves blockfile 1
      active and every block found by hash. Closing and opening again
      changes nothing, and adding the same blocks once more leaves
      blockfile 2 active and every block still found by hash. */
  lemma FileRolling(bs: seq<Block>, max: nat, bound: nat)
    requires AllStorable(bs) && NumberedBlocks(bs) && DistinctHashes(bs)
    requires bound >= 1 && AtMost(RecordSizes(bs), bound) && 20 * bound <= Sum(RecordSizes(bs))
    requires 4 * max <= 3 * Sum(RecordSizes(bs)) < 4 * max + 4
    ensures var m1 := Ledger(Conf(max), bs);
            && m1.cp.fileSuffix == 1
            && (forall k :: 0 <= k < |bs| ==> ByHash(m1, bs[k].hash) == Success(bs[k]))
            && Open(Conf(max), Close(m1)) == Success(m1)
            && var m2 := AddBlocks(m1, bs).value;
               && m2.cp.fileSuffix == 2
               && forall k :: 0 <= k < |bs| ==> ByHash(m2, bs[k].hash) == Success(bs[k])
  {
    hide Ledger, Fresh, Inv, AllEntries, AddBlocks, Open, ByHash, Place, Sum, RecordSizes;
    var conf := Conf(max);
    var rs := RecordSizes(bs);
    var m0 := Fresh(conf);
    var m1 := Ledger(conf, bs);
    InvWf(m0);
    InvWf(m1);
    LedgerIs(conf, bs);
    AddBlocksPlace(m0, bs);
    AddBlocksPlace(m1, bs);
    RollsTwice(max, rs, bound);
    Reopen(m1);
    AddedTwiceFound(m1, bs);
  }

  /** A ledger holding exactly the blocks `bs`, of distinct hashes, finds
      each by hash, and still does after `bs` is added a second time: the
      second copy is the one found. */
  lemma AddedTwiceFound(m1: Mgr, bs: seq<Block>)
    requires Inv(m1) && Blocks(AllEntries(m1.files)) == bs
    requires AllStorable(bs) && NumberedBlocks(bs) && DistinctHashes(bs)
    ensures forall k :: 0 <= k < |bs| ==> ByHash(m1, bs[k].hash) == Success(bs[k])
    ensures forall k :: 0 <= k < |bs| ==> ByHash(AddBlocks(m1, bs).value, bs[k].hash) == Success(bs[k])
  {
    hide *;
    InvWf(m1);
    AddBlocksKeepsInv(m1, bs);
    var m2 := AddBlocks(m1, bs).value;
    var es1, es2 := AllEntries(m1.files), AllEntries(m2.files);
    assert Blocks(es1)[0..] == bs;
    assert Blocks(es2)[|bs|..] == bs;
    forall k | 0 <= k < |bs|
      ensures ByHash(m1, bs[k].hash) == Success(bs[k]) && ByHash(m2, bs[k].hash) == Success(bs[k])
    {
      LastCopyFound(m1, bs, 0, k);
      LastCopyFound(m2, bs, |bs|, k);
    }
  }

  /** Blocks of distinct hashes that end the ledger are found by hash. */
  lemma LastCopyFound(m: Mgr, bs: seq<Block>, off: nat, k: nat)
    requires Inv(m) && off + |bs| == |AllEntries(m.files)| && Blocks(AllEntries(m.files))[off..] == bs
    requires DistinctHashes(bs) && k < |bs|
    ensures ByHash(m, bs[k].hash) == Success(bs[k])
  {
    hide Inv, AllEntries, ScanFile, ByHash, ByNumber, Fold, ReadBlock, Lookup;
    var es := AllEntries(m.files);
    assert forall j :: off <= j < |es| ==> es[j].block == bs[j - off] by {
      forall j | off <= j < |es| ensures es[j].block == bs[j - off] {
        assert Blocks(es)[off..][j - off] == Blocks(es)[j];
      }
    }
    ByHashAt(m, off + k);
  }

  /** Exposes `Ledger` as the manager `AddBlocks` builds from a fresh one. */
  lemma LedgerIs(conf: Conf, bs: seq<Block>)
    requires AllStorable(bs) && NumberedBlocks(bs)
    ensures Ledger(conf, bs) == AddBlocks(Fresh(conf), bs).value
  {
  }

  /** Unfolds `AllEntries` on no files. */
  lemma AllEntriesNil(files: seq<seq<byte>>)
    requires files == []
    ensures AllEntries(files) == []
  {
  }

  /** A prefix of consecutively numbered blocks is consecutively numbered. */
  lemma ConsecutivePrefix(a: seq<Block>, b: seq<Block>)
    requires Consecutive(a + b)
    ensures Consecutive(a)
  {
    assert forall j :: 0 <= j < |a| ==> (a + b)[j] == a[j];
  }
}

=== FILE: types.dfy ===
/** Basic types shared by the block-file storage model: bytes, Go's uint64,
    and the failure-compatible wrappers used for the engine's error surface. */
module Types {

  /** One byte of a blockfile. */
  type byte = b: nat | b < 256

  const TWO_64: nat := 0x1_0000_0000_0000_0000

  /** Go's uint64: block numbers and varint values. */
  type uint64 = x: nat | x < TWO_64

  datatype Option<+T> = None | Some(value: T)

  /** The small, stable error taxonomy the engine reports to its callers. */
  datatype Error =
    | NotFound            // a lookup key that no block carries
    | ShortRead           // fewer bytes in a blockfile than a location asks for
    | MalformedRecord     // the bytes at a location do not frame or decode as a block
    | CorruptCheckpoint   // the persisted checkpoint does not match the files on disk
    | SerializationFailed // a block whose fields do not fit the record format

  /** Concatenation is associative; stated once for the proofs that need
      to regroup a concatenation explicitly. */
  lemma SeqAssoc<T>(x: seq<T>, y: seq<T>, z: seq<T>)
    ensures x + y + z == x + (y + z)
  {
  }

  datatype Result<+T> = Success(value: T) | Failure(error: Error) {
    predicate IsFailure() { Failure? }

    function PropagateFailure<U>(): Result<U>
      requires Failure?
    {
      Failure(error)
    }

    function Extract(): T
      requires Success?
    {
      value
    }
  }
}

=== FILE: varint.dfy ===
/** The Protocol Buffers base-128 varint ("Base 128 Varints" in the Protocol
    Buffers encoding documentation), as the Go protobuf library's
    EncodeVarint and DecodeVarint compute it: little-endian groups of seven
    bits, the high bit of each byte set on every byte but the last. */
module Varint {
  import opened Types

  /** 128^i, the weight of the i-th seven-bit group. */
  function Pow128(i: nat): (p: nat)
    ensures p >= 1
  {
    if i == 0 then 1 else 128 * Pow128(i - 1)
  }

  /** EncodeVarint: emit low groups first while the value exceeds 127. */
  function EncodeVarint(x: uint64): (r: seq<byte>)
    ensures |r| >= 1 && r[|r| - 1] < 128
    decreases x
  {
    if x < 128 then [x]
    else
      var rest := EncodeVarint(x / 128);
      assert ([128 + x % 128] + rest)[|rest|] == rest[|rest| - 1];
      [128 + x % 128] + rest
  }

  /** The decoding loop: `i` is the index of the group being read (its shift
      is 7*i), `acc` the value gathered so far. Go ORs each group shifted into
      a uint64; the groups occupy disjoint bits, so that is an addition
      truncated to 64 bits (only the low bit of a tenth group survives).
      After ten groups, or when the buffer ends before a byte without the
      continuation bit, the result is (0, 0): "nothing decoded". */
  function DecodeGroups(buf: seq<byte>, i: nat, acc: nat): (r: (uint64, nat))
    decreases |buf|
  {
    if i >= 10 || |buf| == 0 then (0, 0)
    else
      var b := buf[0];
      var acc' := (acc + (b % 128) * Pow128(i)) % TWO_64;
      if b < 128 then (acc', i + 1) else DecodeGroups(buf[1..], i + 1, acc')
  }

  /** DecodeVarint: the value and the number of bytes it took; n == 0 means
      the buffer does not start with a complete varint. */
  function DecodeVarint(buf: seq<byte>): (r: (uint64, nat))
    ensures r.1 <= |buf| && r.1 <= 10
    ensures r.1 == 0 ==> r.0 == 0
  {
    DecodeGroupsBounds(buf, 0, 0);
    DecodeGroups(buf, 0, 0)
  }

  /** Bounds on what `DecodeGroups` consumes: nothing when it fails, otherwise at least one byte, within the buffer and never past the tenth group. */
  lemma {:induction false} DecodeGroupsBounds(buf: seq<byte>, i: nat, acc: nat)
    ensures var r := DecodeGroups(buf, i, acc);
            (r.1 == 0 ==> r.0 == 0) && (r.1 != 0 ==> i < r.1 <= i + |buf| && r.1 <= 10)
    decreases |buf|
  {
    if i >= 10 || |buf| == 0 {
    } else if buf[0] >= 128 {
      DecodeGroupsBounds(buf[1..], i + 1, (acc + (buf[0] % 128) * Pow128(i)) % TWO_64);
    }
  }

  /** An encoding is one to ten bytes long. */
  lemma {:induction false} EncodeVarintLength(x: uint64)
    ensures 1 <= |EncodeVarint(x)| <= 10
  {
    EncodeLengthBound(x, 0);
  }

  /** A value that still fits in 64 bits after scaling by 128^i encodes in at most `10 - i` bytes. */
  lemma {:induction false} EncodeLengthBound(x: uint64, i: nat)
    requires x * Pow128(i) < TWO_64
    requires x >= 1 || i == 0
    ensures 1 <= |EncodeVarint(x)| && i + |EncodeVarint(x)| <= 10
    decreases x
  {
    if x >= 128 {
      var q := x / 128;
      assert q * Pow128(i + 1) == q * 128 * Pow128(i);
      assert q * 128 <= x;
      MulMonotone(q * 128, x, Pow128(i));
      EncodeLengthBound(q, i + 1);
    } else if i > 0 {
      MulMonotone(1, x, Pow128(i));
      Pow128Small(i);
    }
  }

  /** Multiplication by a natural number is monotone. */
  lemma MulMonotone(a: nat, b: nat, c: nat)
    requires a <= b
    ensures a * c <= b * c
  {
  }

  /** 128^10 = 2^70 already exceeds every uint64. */
  lemma {:induction false} Pow128Large(i: nat)
    requires i >= 10
    ensures Pow128(i) >= TWO_64
  {
    if i == 10 {
      assert Pow128(10) == 1180591620717411303424;
    } else {
      Pow128Large(i - 1);
    }
  }

  /** A weight below 2^64 is that of one of the first ten groups. */
  lemma Pow128Small(i: nat)
    ensures Pow128(i) < TWO_64 ==> i < 10
  {
    if i >= 10 {
      Pow128Large(i);
    }
  }

  /** Every byte but the last carries the continuation bit. */
  lemma {:induction false} EncodeVarintShape(x: uint64)
    ensures var e := EncodeVarint(x);
            |e| >= 1 && e[|e| - 1] < 128 && forall k :: 0 <= k < |e| - 1 ==> e[k] >= 128
    decreases x
  {
    if x >= 128 {
      EncodeVarintShape(x / 128);
    }
  }

  /** Splitting off the low group of y at weight p. */
  lemma SplitGroup(y: nat, p: nat, acc: nat)
    requires acc < p
    ensures acc + (y % 128) * p < 128 * p
    ensures acc + (y % 128) * p + (y / 128) * (128 * p) == acc + y * p
  {
    var g, q := y % 128, y / 128;
    MulMonotone(g, 127, p);
    assert y * p == (q * 128 + g) * p;
    assert (q * 128 + g) * p == q * (128 * p) + g * p;
  }

  /** The first byte of an encoding, and the bytes after it. */
  lemma EncodeVarintHead(y: uint64, rest: seq<byte>)
    ensures var buf := EncodeVarint(y) + rest;
            && |buf| > 0
            && (y < 128 ==> buf[0] == y && |EncodeVarint(y)| == 1)
            && (y >= 128 ==> buf[0] == 128 + y % 128 && buf[1..] == EncodeVarint(y / 128) + rest
                             && |EncodeVarint(y)| == 1 + |EncodeVarint(y / 128)|)
  {
    if y >= 128 {
      assert EncodeVarint(y) + rest == [128 + y % 128] + (EncodeVarint(y / 128) + rest);
    }
  }

  /** One group of the decoding loop, for a byte with the continuation bit. */
  lemma DecodeGroupsMore(buf: seq<byte>, i: nat, acc: nat)
    requires i < 10 && |buf| > 0 && buf[0] >= 128
    ensures DecodeGroups(buf, i, acc) == DecodeGroups(buf[1..], i + 1, (acc + (buf[0] % 128) * Pow128(i)) % TWO_64)
  {
  }

  /** ... and for the last byte. */
  lemma DecodeGroupsLast(buf: seq<byte>, i: nat, acc: nat)
    requires i < 10 && |buf| > 0 && buf[0] < 128
    ensures DecodeGroups(buf, i, acc) == ((acc + buf[0] * Pow128(i)) % TWO_64, i + 1)
  {
  }

  /** Decoding from group i an encoding that follows a prefix worth `acc`
      yields acc plus the encoded value shifted to group i, having read
      exactly the encoding (whatever follows it). */
  lemma {:induction false} DecodeGroupsEncoded(y: uint64, rest: seq<byte>, i: nat, acc: nat)
    requires i < 10
    requires acc < Pow128(i)
    requires acc + y * Pow128(i) < TWO_64
    ensures DecodeGroups(EncodeVarint(y) + rest, i, acc) == (acc + y * Pow128(i), i + |EncodeVarint(y)|)
    decreases y
  {
    var buf := EncodeVarint(y) + rest;
    EncodeVarintHead(y, rest);
    hide EncodeVarint, DecodeGroups;
    if y >= 128 {
      var acc' := acc + (y % 128) * Pow128(i);
      GroupArith(y, i, acc);
      assert buf[0] % 128 == y % 128;
      DecodeGroupsMore(buf, i, acc);
      DecodeGroupsEncoded(y / 128, rest, i + 1, acc');
    } else {
      ModSmall(acc + y * Pow128(i));
      DecodeGroupsLast(buf, i, acc);
    }
  }

  /** The arithmetic of one continued group: what is left to decode after
      the low seven bits of y, and the value gathered so far, stay within
      the bounds the next group needs. */
  lemma GroupArith(y: uint64, i: nat, acc: nat)
    requires y >= 128 && i < 10
    requires acc < Pow128(i) && acc + y * Pow128(i) < TWO_64
    ensures var acc' := acc + (y % 128) * Pow128(i);
            && i + 1 < 10
            && acc' < Pow128(i + 1)
            && acc' % TWO_64 == acc'
            && acc' + (y / 128) * Pow128(i + 1) == acc + y * Pow128(i)
            && acc' + (y / 128) * Pow128(i + 1) < TWO_64
  {
    var p, g, q := Pow128(i), y % 128, y / 128;
    MulMonotone(g, y, p);
    SplitGroup(y, p, acc);
    assert Pow128(i + 1) == 128 * p;
    MulMonotone(128, y, p);
    Pow128Small(i + 1);
    ModSmall(acc + g * p);
  }

  /** Reducing a value already below 2^64 modulo 2^64 leaves it unchanged. */
  lemma ModSmall(x: nat)
    requires x < TWO_64
    ensures x % TWO_64 == x
  {
  }

  /** Round trip: DecodeVarint reads back the value EncodeVarint wrote and
      consumes exactly its bytes, whatever bytes follow. */
  lemma VarintRoundTrip(x: uint64, rest: seq<byte>)
    ensures DecodeVarint(EncodeVarint(x) + rest) == (x, |EncodeVarint(x)|)
  {
    DecodeGroupsEncoded(x, rest, 0, 0);
  }

  /** Once DecodeVarint has succeeded on a buffer, appending bytes to that
      buffer does not change its answer. */
  lemma {:induction false} DecodeGroupsExtend(buf: seq<byte>, more: seq<byte>, i: nat, acc: nat)
    requires DecodeGroups(buf, i, acc).1 != 0
    ensures DecodeGroups(buf + more, i, acc) == DecodeGroups(buf, i, acc)
    decreases |buf|
  {
    assert (buf + more)[0] == buf[0];
    if buf[0] >= 128 {
      assert (buf + more)[1..] == buf[1..] + more;
      DecodeGroupsExtend(buf[1..], more, i + 1, (acc + (buf[0] % 128) * Pow128(i)) % TWO_64);
    }
  }

  /** A varint that decodes still decodes the same way when bytes follow it. */
  lemma DecodeVarintExtend(buf: seq<byte>, more: seq<byte>)
    requires DecodeVarint(buf).1 != 0
    ensures DecodeVarint(buf + more) == DecodeVarint(buf)
  {
    DecodeGroupsExtend(buf, more, 0, 0);
  }

  /** A strict prefix of an encoding (a length prefix cut short by a crash)
      never decodes. */
  lemma {:induction false} DecodeGroupsCut(y: uint64, k: nat, i: nat, acc: nat)
    requires k < |EncodeVarint(y)|
    ensures DecodeGroups(EncodeVarint(y)[..k], i, acc) == (0, 0)
    decreases y
  {
    var e := EncodeVarint(y);
    if k > 0 && i < 10 && y >= 128 {
      assert e[..k][0] == 128 + y % 128;
      assert e[..k][1..] == EncodeVarint(y / 128)[..k - 1];
      DecodeGroupsCut(y / 128, k - 1, i + 1, (acc + (e[0] % 128) * Pow128(i)) % TWO_64);
    }
  }

  /** No proper prefix of an encoding decodes. */
  lemma VarintCut(x: uint64, k: nat)
    requires k < |EncodeVarint(x)|
    ensures DecodeVarint(EncodeVarint(x)[..k]).1 == 0
  {
    DecodeGroupsCut(x, k, 0, 0);
  }

  /** Cutting a buffer anywhere after a complete varint does not change
      what it decodes to. */
  lemma {:induction false} DecodeGroupsPrefix(buf: seq<byte>, t: nat, i: nat, acc: nat)
    requires DecodeGroups(buf, i, acc).1 != 0
    requires DecodeGroups(buf, i, acc).1 <= i + t <= i + |buf|
    ensures DecodeGroups(buf[..t], i, acc) == DecodeGroups(buf, i, acc)
    decreases |buf|
  {
    DecodeGroupsBounds(buf, i, acc);
    assert buf[..t][0] == buf[0];
    if buf[0] >= 128 {
      var acc' := (acc + (buf[0] % 128) * Pow128(i)) % TWO_64;
      assert buf[..t][1..] == buf[1..][..t - 1];
      DecodeGroupsPrefix(buf[1..], t - 1, i + 1, acc');
    }
  }

  /** Cutting a buffer anywhere after the varint it starts with does not change what it decodes to. */
  lemma DecodeVarintPrefix(buf: seq<byte>, t: nat)
    requires 0 < DecodeVarint(buf).1 <= t <= |buf|
    ensures DecodeVarint(buf[..t]) == DecodeVarint(buf)
  {
    DecodeGroupsPrefix(buf, t, 0, 0);
  }
}
